=== FILE: README.md ===
# Notes app core in Dafny

A verified model of the server core, the page logic and the migration
runner of a small notes CRUD application (Express, SQLite, a browser page,
and a PostgreSQL migration script).

- **`Storage`** (storage.dfy): the `notes` table as its SQL statements
  define it.
  - AUTOINCREMENT ids that are never reused.
  - `created_at` and `updated_at` both set on insert; only `updated_at` is
    refreshed on update.
  - UPDATE and DELETE by id report `changes` = 0 on a missing row instead of
    failing.
  - `SELECT ... ORDER BY updated_at DESC` for listing.
  - A missing row reads as `undefined` (an `Option`).
  - `run` reports the connection's last inserted rowid as `id`, and
    `connect` opens a new connection, on which that rowid is 0.
  - The database either holds the table or not. Without it, every statement
    fails with the driver's "no such table" error, which gives the service
    and route layers a real storage-failure path.
- **`NotesService`** (notes_service.dfy): `validateNoteData`, the existence
  check before every update and delete, and the operation-specific prefix
  the service puts on every error message.
- **`Routes`** (routes.dfy): each handler of the router, and the status its
  `catch` block picks. That choice is made by case-sensitive `includes`
  tests for "not found" and "required" on the message. Composed with the
  service's exact wording, this proves which status every outcome gets. In
  particular, an over-long title or content yields 500, not 400, because
  those messages lack the word "required".
- **`Escape`** (escape.dfy): `escapeHtml`, as the five chained global
  replacements the page applies to a note's title and content in its
  card's heading and paragraph. It is proved equal to a single
  per-character map: the character references of section 13.1.4 of the
  WHATWG HTML Living Standard. A decoder is proved to invert it.
- **`Client`** (client.dfy): the submit guard of the note form, the choice
  between PUT and POST, and the `editingNoteId` transitions of `editNote`
  and `resetForm`.
- **`Migrate`** (migrate.dfy): the `.sql` filter and sort, then the loop
  that skips recorded names, runs each new file and records its name
  between `BEGIN` and `COMMIT`, and stops at the first failure.
- **`Strings`** and **`Wrappers`** (strings.dfy, wrappers.dfy): the
  JavaScript string primitives used above (`trim`, `includes`, `endsWith`,
  `length`, and the UTF-16 code-unit order of `sort()`), and
  `Option`/`Result`.

Some values the application gets from outside the program are parameters here:

- the clock (`now: nat`);
- whether a migration's SQL succeeds (`sqlOk`);
- the directory listing (`dir`);
- whether the migrations table already exists, and its rows (`table`).

Behaviour of the code that a reader might not expect:

- **Content length.** `validateNoteData` rejects content only when its
  `length` is `> 1000` (services/notes-service.js:80), while the message it
  throws says "less than 1000 characters" (services/notes-service.js:81).
  So content of exactly 1000 units is accepted. In the same way, a title of
  exactly 100 units is accepted although its message says "less than 100".
- **What is measured.** Lengths are those of the untrimmed strings, in
  UTF-16 code units.
- **Over-long fields.** Their messages do not contain "required", so the
  POST and PUT handlers answer them with 500
  (routes/notes.js:48-52, 64-67), not with the 400 of the presence rules.
- **Update order.** `updateNote` validates before it checks that the note
  exists. So data failing a presence rule gets 400 on PUT even when the id
  is missing, and data failing a length rule gets 500; 404 is reached only
  with valid data.
- **What writes return.** Create and update answer with `{ id, changes }`
  from `run`, not with the note. For an update, `id` is the connection's
  last inserted rowid, which is 0 until the connection inserts a row.
- **Tags.** The routes call `getNotesByTag` and `getAllTags`, which the
  service does not define. The model treats those calls as the TypeError
  they raise, so they answer 500.

## Model

| member | source | states |
|---|---|---|
| Storage.InitializeDatabase | services/storage-service.js:9-35 | after `connect` and `CREATE TABLE IF NOT EXISTS` the table exists and satisfies the table invariant; an existing table keeps its rows and sequence, a new one is empty; the new connection's last inserted rowid is 0 |
| Storage.WritesAfterConnectReportZero | services/storage-service.js:12-17 | an update or delete issued first on a new connection reports `id` 0, whatever rows the table already held |
| Storage.InitializeIdempotent | services/storage-service.js:25-34 | running the schema bootstrap twice is the same as running it once |
| Storage.InsertNewestFirst | services/storage-service.js:38 | inserting into a list ordered by `updated_at` descending keeps it ordered and adds exactly that row (multiset) |
| Storage.SortNewestFirst | services/storage-service.js:38 | `ORDER BY updated_at DESC` yields a permutation of its input in non-increasing `updated_at` order |
| Storage.RowsBelow | services/storage-service.js:37-39 | the table scan holds each row with id below the bound exactly once and nothing else |
| Storage.GetAllNotes | services/storage-service.js:37-40 | listing fails exactly when the table is missing; otherwise it holds every stored row exactly once, newest first |
| Storage.GetNoteById | services/storage-service.js:42-45 | the row stored under the id, or `undefined` when there is none; never an error while the table exists |
| Storage.CreateNote | services/storage-service.js:47-53 | an insert adds exactly one row, under an id at least the sequence value and not in use; title and content are stored as given and both timestamps are the current time; `changes` is 1 and `lastID` is the new id |
| Storage.UpdateNote | services/storage-service.js:55-62 | the matching row gets the new title, content and `updated_at` and keeps its id and `created_at`; every other row is unchanged; a missing id leaves the table unchanged with `changes` 0 and no error |
| Storage.DeleteNote | services/storage-service.js:64-67 | exactly the matching row is removed and every other row is unchanged; the sequence is not rewound; `changes` is 1 or 0 and a missing id is not an error |
| Storage.IdsNeverReused | services/storage-service.js:27 | over any sequence of inserts, updates and deletes, the ids handed out strictly increase and none was in use before, so a deleted id is never given out again |
| Storage.ExecuteKeepsTimes | services/storage-service.js:30-31 | with a clock that does not go backwards, every row keeps `created_at <= updated_at <= now` after any write |
| Storage.UpdatedRowListedFirst | services/storage-service.js:58 | of two inserted rows, the one updated later is listed first, with its new values and original `created_at` |
| Storage.ListTwoRows | services/storage-service.js:38 | a table of two rows lists the more recently updated one first |
| NotesService.PresenceCheckMeaning | services/notes-service.js:68 | the test `!v \|\| typeof v !== 'string' \|\| v.trim().length === 0` rejects exactly the values that are not strings with a non-whitespace character |
| NotesService.ValidateNoteData | services/notes-service.js:65-83 | the first failing rule in the order title presence, content presence, title length (> 100 UTF-16 units), content length (> 1000 units); none exactly when the data is valid, each rule as an if-and-only-if |
| NotesService.Message | services/notes-service.js:68-82 | the four messages `validateNoteData` throws; Routes.RequiredMessagesSayRequired, Routes.LengthMessagesNotRequired and Routes.ViolationsNotFound state which of them the routes' `includes` tests match |
| NotesService.MessageDeterminesRule | services/notes-service.js:68-82 | no two rules throw the same message, so the message names the rule that failed |
| NotesService.GetAllNotes | services/notes-service.js:4-10 | all stored notes exactly once, newest first; a storage failure becomes "Failed to fetch notes: " plus the driver's message |
| NotesService.GetNoteById | services/notes-service.js:12-22 | the stored note exactly when a row has the id; otherwise "Failed to fetch note: Note not found", or the prefixed storage error when the table is missing |
| NotesService.CreateNote | services/notes-service.js:24-32 | succeeds exactly for valid data with the table present, storing title and content untrimmed under a fresh id; every failure leaves the store unchanged and is "Failed to create note: " plus the validation or storage message |
| NotesService.UpdateNote | services/notes-service.js:34-49 | validation comes first, then the existence check; succeeds exactly for valid data on an existing id, changing only that note; a missing id fails with "Failed to update note: Note not found" and leaves the store unchanged |
| NotesService.DeleteNote | services/notes-service.js:51-63 | succeeds exactly on an existing id and removes exactly that note; a missing id fails with "Failed to delete note: Note not found" and leaves the store unchanged |
| NotesService.CreateThenGet | services/notes-service.js:24-32 | a created note reads back with exactly the title and content it was given and both timestamps equal to the time of creation |
| NotesService.UpdateThenGet | services/notes-service.js:34-49 | an updated note reads back with the new title, content and `updated_at` and its original `created_at` |
| NotesService.DeleteThenGet | services/notes-service.js:51-63 | after a delete, reading the note fails with "Note not found", and deleting it again fails the same way |
| Routes.HandleListNotes | routes/notes.js:6-16 | GET / answers 200 with exactly the stored notes, each once and newest first, exactly when no truthy tag is given and the table exists, and 500 with an error body otherwise; Routes.ListStatus states the same per case |
| Routes.HandleListTags | routes/notes.js:19-26 | GET /tags always answers 500 with an error body |
| Routes.HandleGetNote | routes/notes.js:29-40 | GET by id answers 200 with the stored row exactly when the id has a row; every other answer carries an error body; Routes.GetNoteStatus splits the failures into 404 and 500 |
| Routes.HandleCreateNote | routes/notes.js:43-54 | POST answers 201 exactly for valid data with the table present, reporting one change and storing the given title and content, both times `now`, under an id the table did not hold, with every other row kept; every other answer carries an error body and leaves the store unchanged; Routes.CreateNoteStatus splits the failures into 400 and 500 |
| Routes.HandleUpdateNote | routes/notes.js:57-70 | PUT answers 200 exactly for valid data on an existing note, reporting one change and rewriting that note with the given title and content, its `created_at` and `updated_at` `now`, with every other row kept; every other answer carries an error body and leaves the store unchanged; Routes.UpdateNoteStatus splits the failures into 400, 404 and 500 |
| Routes.HandleDeleteNote | routes/notes.js:73-84 | DELETE answers 204 with no body exactly when the note exists, and then removes exactly that row; every other answer carries an error body and leaves the store unchanged; Routes.DeleteNoteStatus splits the failures into 404 and 500 |
| Routes.ErrorStatus | routes/notes.js:13-83 | 404 exactly for GET, PUT and DELETE by id on a message containing "not found"; 400 exactly for POST on "required" and for PUT on "required" without "not found"; otherwise 500 |
| Routes.NotFoundIsFound | routes/notes.js:34 | the case-sensitive `includes('not found')` matches every message ending in "Note not found", whatever its prefix |
| Routes.RequiredMessagesSayRequired | routes/notes.js:48 | both presence messages contain "required", whatever prefix the service puts before them |
| Routes.ViolationsNotFound | routes/notes.js:62 | no validation message, behind a prefix without a lower-case 'f', contains "not found" |
| Routes.LengthMessagesNotRequired | routes/notes.js:48 | the two length messages do not contain "required" |
| Routes.FetchNoSuchTableNotFound | routes/notes.js:34 | "Failed to fetch note: SQLITE_ERROR: no such table: notes" does not contain "not found", so a missing table is a 500 on GET by id |
| Routes.GetNoteStatus | routes/notes.js:29-40 | GET by id answers 200 with the stored note exactly when it exists, 404 exactly when the table has no such row, 500 exactly when the table is missing |
| Routes.CreateViolationStatus | routes/notes.js:47-53 | a validation failure on POST is 400 for the presence rules and 500 for the length rules |
| Routes.CreateNoteStatus | routes/notes.js:43-54 | POST answers 201 exactly for valid data with the table present, 400 exactly for a missing or blank title or content, and 500 exactly for an over-long field or a missing table |
| Routes.CreateInvalidStatus | routes/notes.js:43-53 | a POST whose data fails validation answers 400 when the failed rule is a presence rule and 500 when it is a length rule |
| Routes.CreateNoTableStatus | routes/notes.js:43-53 | a POST with valid data against a database without the notes table answers 500 |
| Routes.UpdateViolationStatus | routes/notes.js:61-69 | a validation failure on PUT is 400 for the presence rules and 500 for the length rules, never 404 |
| Routes.UpdateNoteStatus | routes/notes.js:57-70 | PUT answers 200 exactly on valid data for an existing note, 400 exactly for the presence rules (even for a missing id), 404 exactly for valid data on a missing id, and 500 otherwise |
| Routes.UpdateInvalidStatus | routes/notes.js:57-69 | a PUT whose data fails validation answers 400 for a presence rule and 500 for a length rule, whatever the id |
| Routes.UpdateNoTableStatus | routes/notes.js:57-69 | a PUT with valid data against a database without the notes table answers 500 |
| Routes.UpdateMissingStatus | routes/notes.js:57-69 | a PUT with valid data for an id that has no row answers 404 |
| Routes.DeleteNoteStatus | routes/notes.js:73-84 | DELETE answers 204 with an empty body exactly when the note existed, 404 exactly when it did not, 500 exactly when the table is missing |
| Routes.ListStatus | routes/notes.js:6-26 | listing with a non-empty tag and listing tags always answer 500; listing without a tag answers 200 exactly when the table exists, and 500 otherwise |
| Escape.ReplaceAll | public/app.js:141 | a global one-character replace leaves a string without that character unchanged, and leaves no occurrence of it when the replacement lacks it |
| Escape.ReplaceAllAppend | public/app.js:141-145 | replacing in a concatenation is replacing in each part |
| Escape.ChainChar | public/app.js:140-145 | on a single character the five chained replaces give exactly that character's reference, because `&` is replaced first |
| Escape.EscapeHtmlIsMap | public/app.js:140-145 | the five sequential global replaces equal the single per-character map |
| Escape.EscapeMap | public/app.js:141-145 | the per-character map's output holds no `<`, `>`, `"` or `'`, and its length is the input's plus 4 per `&`, 3 per `<` or `>`, 5 per `"` or `'` |
| Escape.EscapeHtml | public/app.js:139-146 | `escapeHtml` is the per-character map, so its output holds no `<`, `>`, `"` or `'` |
| Escape.EscapeHtmlFixedPoint | public/app.js:139-146 | a string is its own escape exactly when it holds none of the five special characters |
| Escape.EscapeHtmlTwice | public/app.js:141 | escaping twice equals escaping once exactly when there was nothing to escape |
| Escape.EscapeAmpersandTwice | public/app.js:141 | "&" escapes to "&amp;", which escapes to "&amp;amp;" |
| Escape.EscapeHtmlRoundTrip | public/app.js:139-146 | decoding the five references recovers the original text: escaping loses nothing |
| Escape.EscapeHtmlInjective | public/app.js:139-146 | two different texts never escape to the same output |
| Client.HandleNoteSubmit | public/app.js:39-51 | nothing is sent exactly when the trimmed title or content is empty, and then the error shown is "Title and content are required"; otherwise the trimmed values are sent, by PUT to the note's URL exactly when `editingNoteId` is truthy and by POST to the collection otherwise |
| Client.EditNote | public/app.js:88-93 | editing a note sets `editingNoteId` to its id, loads its title and content, and labels the button "Update Note" |
| Client.ResetForm | public/app.js:116-120 | resetting clears `editingNoteId` to null, sets both inputs to the empty string and labels the button "Add Note" |
| Client.SentBodyPassesRequiredChecks | public/app.js:39-45 | a body the page sends is already trimmed and never fails the server's presence rules |
| Client.EditThenSubmit | public/app.js:48-51 | after `editNote`, a filled-in submit is a PUT to that note; after `resetForm`, an unchanged submit is refused and a filled-in one is a POST |
| Migrate.FilterSql | scripts/migrate.js:25 | the filter keeps exactly the names ending in ".sql", each as often as it was listed |
| Migrate.InsertSorted | scripts/migrate.js:25 | inserting a name into a sorted list keeps it sorted and adds exactly that name |
| Migrate.SortNames | scripts/migrate.js:25 | `sort()` yields a permutation in ascending UTF-16 code-unit order |
| Migrate.SortedUnique | scripts/migrate.js:25 | two sorted arrangements of the same names are equal, so the order of the run is fully determined |
| Migrate.SqlFiles | scripts/migrate.js:24-25 | the files run are exactly the `.sql` names of the directory, each as often as listed, in ascending order |
| Migrate.EnsureMigrationsTable | scripts/migrate.js:14-20 | a missing migrations table is created empty; an existing one keeps its rows |
| Migrate.EnsureMigrationsTableIdempotent | scripts/migrate.js:14-20 | creating the migrations table a second time changes nothing |
| Migrate.RunFrom | scripts/migrate.js:28-60 | names are only ever appended to the table; a completed run records exactly the names it ran; a failed run ends with the failing name, whose SQL failed and which is not recorded |
| Migrate.AttemptedAreNew | scripts/migrate.js:32-37 | only listed files whose name was not recorded before the run have their SQL executed |
| Migrate.RecordedAfterSuccess | scripts/migrate.js:44-51 | a name is added to the table only after its SQL succeeded |
| Migrate.FailureStops | scripts/migrate.js:53-56 | after a failure no later file is looked at: files appended after the failing one change nothing |
| Migrate.CompletedThenContinue | scripts/migrate.js:28-60 | a completed run over some files followed by more is the run over the rest from where the first left off |
| Migrate.CompletedRecordsAll | scripts/migrate.js:28-60 | after a completed run every listed file is recorded |
| Migrate.AllRecordedIsNoop | scripts/migrate.js:57-58 | when every file is already recorded, the run executes no SQL and changes nothing |
| Migrate.SecondRunExecutesNothing | scripts/migrate.js:28-60 | a second run after a completed one executes nothing and leaves the table as it was |
| Migrate.RecordsOnce | scripts/migrate.js:37-50 | a name is never recorded twice, even when listed twice |
| Migrate.ExitCode | scripts/migrate.js:63-65 | the process exits with 1 exactly after a failure and normally otherwise |
| Migrate.ApplyPending | scripts/migrate.js:28-60 | the loop computes exactly the run of the recursive definition: same outcome, same recorded names, same executed files |
| Migrate.RunMigration | scripts/migrate.js:6-69 | `runMigration` prepares the table, selects the sorted `.sql` files and runs the loop over them; it exits with 0 exactly when every pending file succeeded, and with 1 exactly after a failure |
| Strings.Trim | services/notes-service.js:68 | `trim()` returns the part of the string that has only whitespace before and after it; that part is empty exactly for an all-whitespace string, and otherwise starts and ends with a non-whitespace character |
| Strings.Contains | routes/notes.js:34 | `includes`: the needle occurs as a contiguous, case-sensitive substring starting at some index of the haystack, so the empty needle always matches; the same test decides the status at routes/notes.js:48, 62, 64 and 78 |
| Strings.EndsWith | scripts/migrate.js:25 | `endsWith`: the suffix is no longer than the string and equals its last characters |
| Strings.Utf16 | services/notes-service.js:76-80 | `length` counts UTF-16 code units: it equals the number of characters when every character is below U+10000, exceeds it when some character is at or above U+10000 (a surrogate pair), is never less than it, and is zero exactly for the empty string |
| Strings.LexLeIsUtf16Order | scripts/migrate.js:25 | the string order used for sorting is the lexicographic order of the strings' UTF-16 code units, the comparison `sort()` applies without a comparator |
| Strings.TrimIdempotent | public/app.js:39-40 | trimming a trimmed value changes nothing |

## Left out

- The sqlite3 driver, `close` and the Promise wrappers `run`/`get`/`all` (services/storage-service.js:70-104). The table is modelled abstractly, and each service call is one atomic step. Of `connect` (services/storage-service.js:9-22) only its effect on the table and on the last inserted rowid is modelled; a failure to open the file is not. Async interleavings, such as the gap between the existence check and the write in `updateNote`/`deleteNote`, are not modelled.
- `CURRENT_TIMESTAMP`: the clock is a natural number supplied by the caller. Its one-second resolution is not modelled, and no strict order between writes in the same second is claimed.
- Storage.SortNewestFirst: SQL leaves the order of rows with equal `updated_at` open. The model picks one order, and its contract states only what SQL guarantees: a permutation in non-increasing `updated_at`.
- server.js is not part of this model: environment checks, middleware, static files, signal handlers.
- Browser plumbing in public/app.js: `fetch`, response handling, `loadNotes`, `renderNotes`, `deleteNote`'s `confirm`, `showLoading`, `showError` and `setTimeout`. The model stops at the request `handleNoteSubmit` would send.
- Tags: `getNotesByTag` and `getAllTags` do not exist in the service, so no tag behaviour is modelled. Those routes are modelled only as the failure (500) their calls raise.
- Migration I/O: the pg pool, `fs.readdir`, `fs.readFile` and console logging. A failure to read a file is folded into the `sqlOk` oracle, since it also ends the run with nothing recorded for that file. A connection failure is not modelled. `path.basename` is the identity, because `readdir` entries carry no directory part.
- Storage failures other than a missing `notes` table are not modelled: a busy or locked database, an I/O error, a full disk, or a write that fails while reads succeed. Every statement on an existing table succeeds, so the rows that say a route answers 500 "exactly when the table is missing" hold only under this assumption.
- JSON numbers in a request body are integers, and a body that is not an object is not modelled.
- Migrate.RunFrom: the model assumes that `BEGIN`, the migration's SQL, the `INSERT` into `migrations`, and `COMMIT` or `ROLLBACK` run as one transaction on one connection. In scripts/migrate.js:44-54 they are separate `pool.query` calls, and a pool does not promise to send them over the same client. A failing file is modelled as leaving nothing behind.
- Client.ResetForm: `noteForm.reset()` (public/app.js:118) restores each input to its default value. The page's inputs are taken to have no default value, so they become empty.
- Routes: an id from the URL is an integer. A non-numeric id matches no row, as it does in SQLite, and this is modelled as an id absent from the table.
- The Edit button's `onclick="editNote(${JSON.stringify(note)})"` (public/app.js:102) embeds the whole note, title and content included, as JSON in a double-quoted attribute without `escapeHtml`. The JSON's first `"` ends the attribute, so the guarantees of `Escape` do not cover this path. It is not modelled; it is the page's only caller of `editNote`, which `Client.EditNote` models from the note it receives.
- Strings.Utf16: a Dafny `char` is a Unicode scalar value, so a string holding a lone surrogate, which a JavaScript string from a JSON body (`"\ud800"`) can, is not representable. The lengths are stated only for well-formed strings.
- Escape.EscapeHtmlRoundTrip: `Unescape` is a reference decoder written for this model, not a function of the application. It states that escaping loses no information.

=== FILE: client.dfy ===
/** The form logic of public/app.js: the guard and request choice of
    `handleNoteSubmit`, and the `editingNoteId` transitions of `editNote`
    and `resetForm`. */
module Client {
  import opened Wrappers
  import opened Strings
  import Storage
  import NotesService

  /** The page state the form logic reads and writes: `editingNoteId`
      (null, or the id of the note being edited), the two inputs, and the
      submit button's label. */
  datatype Form = Form(editingNoteId: Option<int>, title: string, content: string, button: string)

  const AddLabel := "Add Note"
  const UpdateLabel := "Update Note"
  const RequiredAlert := "Title and content are required"

  datatype HttpMethod = Post | Put

  /** `${API_URL}/notes` or `${API_URL}/notes/${id}`. */
  datatype Target = Collection | Item(id: int)

  /** What a submit does: show an error and send nothing, or send the
      trimmed values as the JSON body. */
  datatype Submit =
    | Rejected(message: string)
    | Send(verb: HttpMethod, target: Target, title: string, content: string)

  /** JavaScript truthiness of `editingNoteId`: null and 0 are falsy. */
  predicate IsEditing(f: Form) {
    f.editingNoteId.Some? && f.editingNoteId.value != 0
  }

  /** `handleNoteSubmit` up to the `fetch`. */
  function HandleNoteSubmit(f: Form): (r: Submit)
    ensures r.Rejected? <==> IsBlank(f.title) || IsBlank(f.content)
    ensures r.Rejected? ==> r.message == RequiredAlert
    ensures r.Send? ==> r.title == Trim(f.title) && r.content == Trim(f.content)
    ensures r.Send? ==> (r.verb == Put <==> IsEditing(f))
    ensures r.Send? ==> (r.verb == Put <==> r.target.Item?)
    ensures r.Send? && r.target.Item? ==> f.editingNoteId == Some(r.target.id)
  {
    var title := Trim(f.title);
    var content := Trim(f.content);
    if |title| == 0 || |content| == 0 then
      Rejected(RequiredAlert)
    else if IsEditing(f) then
      Send(Put, Item(f.editingNoteId.value), title, content)
    else
      Send(Post, Collection, title, content)
  }

  /** `editNote(note)`: loads the note into the form and switches to
      editing it. */
  function EditNote(f: Form, note: Storage.Note): (r: Form)
    ensures r.editingNoteId == Some(note.id as int)
    ensures r.title == note.title && r.content == note.content
    ensures r.button == UpdateLabel
  {
    Form(Some(note.id), note.title, note.content, UpdateLabel)
  }

  /** `resetForm()`: clears `editingNoteId` and empties the inputs. */
  function ResetForm(f: Form): (r: Form)
    ensures !IsEditing(r) && r.editingNoteId.None?
    ensures r.title == "" && r.content == ""
    ensures r.button == AddLabel
  {
    Form(None, "", "", AddLabel)
  }

  /** A sent body is already trimmed, and it passes the server's presence
      checks; only the length limits, which the page does not check, can
      still reject it. */
  lemma SentBodyPassesRequiredChecks(f: Form)
    requires HandleNoteSubmit(f).Send?
    ensures var r := HandleNoteSubmit(f);
      && Trim(r.title) == r.title && Trim(r.content) == r.content
      && var v := NotesService.ValidateNoteData(
           NotesService.NoteData(NotesService.Str(r.title), NotesService.Str(r.content)));
         v != Some(NotesService.TitleRequired) && v != Some(NotesService.ContentRequired)
  {
    var r := HandleNoteSubmit(f);
    assert r.title == Trim(f.title) && r.content == Trim(f.content);
    TrimIdempotent(f.title);
    TrimIdempotent(f.content);
    SentIsNonBlank(f.title);
    SentIsNonBlank(f.content);
  }

  /** What survives the page's guard is a non-blank string to the service. */
  lemma SentIsNonBlank(s: string)
    requires !IsBlank(s)
    ensures NotesService.IsNonBlankString(NotesService.Str(Trim(s)))
  {
    TrimIdempotent(s);
    assert |Trim(Trim(s))| > 0;
  }

  /** After `editNote` on a stored note, a submit with both fields filled
      in updates that note; after `resetForm` nothing is sent until the
      inputs are filled in again, and then it is a create. */
  lemma EditThenSubmit(f: Form, note: Storage.Note, title: string, content: string)
    requires note.id >= 1
    requires !IsBlank(title) && !IsBlank(content)
    ensures var g := EditNote(f, note);
      HandleNoteSubmit(g.(title := title, content := content))
        == Send(Put, Item(note.id), Trim(title), Trim(content))
    ensures HandleNoteSubmit(ResetForm(f)) == Rejected(RequiredAlert)
    ensures HandleNoteSubmit(ResetForm(f).(title := title, content := content))
        == Send(Post, Collection, Trim(title), Trim(content))
  {
  }
}

=== FILE: escape.dfy ===
/** `escapeHtml` of public/app.js: the function a note's title and content
    pass through before they are written into its card's heading and
    paragraph. */
module Escape {

  /** `s.replace(/c/g, rep)` for a one-character pattern: every occurrence
      of `c` becomes `rep`, everything else is copied in order. */
  function ReplaceAll(s: string, c: char, rep: string): (r: string)
    ensures c !in s ==> r == s
    ensures c !in rep ==> c !in r
  {
    if |s| == 0 then
      []
    else
      (if s[0] == c then rep else [s[0]]) + ReplaceAll(s[1..], c, rep)
  }

  lemma ReplaceAllOne(x: char, c: char, rep: string)
    ensures ReplaceAll([x], c, rep) == if x == c then rep else [x]
  {
    assert [x][1..] == [];
  }

  /** Replacing in a concatenation is replacing in each part. */
  lemma {:induction false} ReplaceAllAppend(a: string, b: string, c: char, rep: string)
    ensures ReplaceAll(a + b, c, rep) == ReplaceAll(a, c, rep) + ReplaceAll(b, c, rep)
    decreases |a|
  {
    if |a| > 0 {
      assert (a + b)[1..] == a[1..] + b;
      ReplaceAllAppend(a[1..], b, c, rep);
    } else {
      assert a + b == b;
    }
  }

  /** `escapeHtml(unsafe)`: five global replacements, `&` first. */
  function EscapeHtml(s: string): (r: string)
    ensures r == EscapeMap(s)
    ensures '<' !in r && '>' !in r && '"' !in r && '\'' !in r
  {
    EscapeHtmlIsMap(s);
    Chain(s)
  }

  /** The character references of the five characters HTML treats
      specially (section 13.1.4 of the WHATWG HTML Living Standard);
      every other character stands for itself. */
  function EscapeChar(c: char): (r: string) {
    match c
    case '&' => "&amp;"
    case '<' => "&lt;"
    case '>' => "&gt;"
    case '"' => "&quot;"
    case '\'' => "&#039;"
    case _ => [c]
  }

  predicate IsSpecial(c: char) {
    c == '&' || c == '<' || c == '>' || c == '"' || c == '\''
  }

  /** The per-character map: each character replaced by its reference. Its
      output never holds a character that closes a tag or an attribute, and
      its length grows by the reference length less one per special
      character. */
  function EscapeMap(s: string): (r: string)
    ensures '<' !in r && '>' !in r && '"' !in r && '\'' !in r
    ensures |r| == |s| + 4 * Count(s, '&') + 3 * Count(s, '<') + 3 * Count(s, '>')
      + 5 * Count(s, '"') + 5 * Count(s, '\'')
  {
    if |s| == 0 then
      []
    else
      var head, rest := EscapeChar(s[0]), EscapeMap(s[1..]);
      EscapeCharFacts(s[0]);
      head + rest
  }

  lemma EscapeCharFacts(c: char)
    ensures '<' !in EscapeChar(c) && '>' !in EscapeChar(c) && '"' !in EscapeChar(c) && '\'' !in EscapeChar(c)
    ensures |EscapeChar(c)| == 1 + (if c == '&' then 4 else if c == '<' || c == '>' then 3
      else if c == '"' || c == '\'' then 5 else 0)
  {
  }

  /** The number of occurrences of `c` in `s`. */
  function Count(s: string, c: char): nat {
    if |s| == 0 then 0 else (if s[0] == c then 1 else 0) + Count(s[1..], c)
  }

  lemma {:induction false} CountPositive(s: string, i: nat)
    requires i < |s|
    ensures Count(s, s[i]) > 0
    decreases |s|
  {
    if i > 0 {
      assert s[1..][i - 1] == s[i];
      CountPositive(s[1..], i - 1);
    }
  }

  /** The five replacements in the order `escapeHtml` applies them, one
      stage per replacement. */
  function Chain(s: string): string {
    AfterAmp(ReplaceAll(s, '&', "&amp;"))
  }

  function AfterAmp(s: string): string {
    AfterLt(ReplaceAll(s, '<', "&lt;"))
  }

  function AfterLt(s: string): string {
    AfterGt(ReplaceAll(s, '>', "&gt;"))
  }

  function AfterGt(s: string): string {
    AfterQuot(ReplaceAll(s, '"', "&quot;"))
  }

  function AfterQuot(s: string): string {
    ReplaceAll(s, '\'', "&#039;")
  }

  lemma ChainAppend(a: string, b: string)
    ensures Chain(a + b) == Chain(a) + Chain(b)
  {
    var a1, b1 := ReplaceAll(a, '&', "&amp;"), ReplaceAll(b, '&', "&amp;");
    ReplaceAllAppend(a, b, '&', "&amp;");
    var a2, b2 := ReplaceAll(a1, '<', "&lt;"), ReplaceAll(b1, '<', "&lt;");
    ReplaceAllAppend(a1, b1, '<', "&lt;");
    var a3, b3 := ReplaceAll(a2, '>', "&gt;"), ReplaceAll(b2, '>', "&gt;");
    ReplaceAllAppend(a2, b2, '>', "&gt;");
    var a4, b4 := ReplaceAll(a3, '"', "&quot;"), ReplaceAll(b3, '"', "&quot;");
    ReplaceAllAppend(a3, b3, '"', "&quot;");
    ReplaceAllAppend(a4, b4, '\'', "&#039;");
  }

  /** On one character the chain produces that character's reference:
      since `&` goes first, the `&` the later stages insert is never
      replaced again, and no reference holds a character a later stage
      replaces. */
  lemma ChainChar(c: char)
    ensures Chain([c]) == EscapeChar(c)
  {
    ReplaceAllOne(c, '&', "&amp;");
    if c == '&' {
      Untouched("&amp;");
      return;
    }
    ReplaceAllOne(c, '<', "&lt;");
    if c == '<' {
      Untouched("&lt;");
      return;
    }
    ReplaceAllOne(c, '>', "&gt;");
    if c == '>' {
      Untouched("&gt;");
      return;
    }
    ReplaceAllOne(c, '"', "&quot;");
    if c == '"' {
      Untouched("&quot;");
      return;
    }
    ReplaceAllOne(c, '\'', "&#039;");
  }

  /** A string holding none of `<`, `>`, `"` and `'` passes every stage
      after the first unchanged. */
  lemma Untouched(s: string)
    requires '<' !in s && '>' !in s && '"' !in s && '\'' !in s
    ensures AfterAmp(s) == s && AfterLt(s) == s && AfterGt(s) == s && AfterQuot(s) == s
  {
  }

  /** The five sequential replacements equal the single per-character map. */
  lemma {:induction false} EscapeHtmlIsMap(s: string)
    ensures Chain(s) == EscapeMap(s)
    decreases |s|
  {
    if |s| > 0 {
      assert s == [s[0]] + s[1..];
      ChainAppend([s[0]], s[1..]);
      ChainChar(s[0]);
      EscapeHtmlIsMap(s[1..]);
    }
  }

  /** A string is its own escape exactly when it holds none of the five
      special characters. */
  lemma EscapeHtmlFixedPoint(s: string)
    ensures EscapeHtml(s) == s <==> forall i :: 0 <= i < |s| ==> !IsSpecial(s[i])
  {
    if forall i :: 0 <= i < |s| ==> !IsSpecial(s[i]) {
      EscapeUnchanged(s);
    } else {
      var i :| 0 <= i < |s| && IsSpecial(s[i]);
      CountPositive(s, i);
      assert |EscapeHtml(s)| > |s|;
    }
  }

  lemma {:induction false} EscapeUnchanged(s: string)
    requires forall i :: 0 <= i < |s| ==> !IsSpecial(s[i])
    ensures EscapeMap(s) == s
    decreases |s|
  {
    if |s| > 0 {
      EscapeUnchanged(s[1..]);
    }
  }

  /** Escaping is not idempotent: escaping twice is escaping once exactly
      when there was nothing to escape. */
  lemma EscapeHtmlTwice(s: string)
    ensures EscapeHtml(EscapeHtml(s)) == EscapeHtml(s) <==> forall i :: 0 <= i < |s| ==> !IsSpecial(s[i])
  {
    EscapeHtmlFixedPoint(s);
    EscapeHtmlFixedPoint(EscapeHtml(s));
    if !forall i :: 0 <= i < |s| ==> !IsSpecial(s[i]) {
      var i :| 0 <= i < |s| && IsSpecial(s[i]);
      var k := AmpersandAppears(s, i);
      assert IsSpecial(EscapeHtml(s)[k]);
    }
  }

  /** Escaping a special character leaves an `&` in the output. */
  lemma {:induction false} AmpersandAppears(s: string, i: nat) returns (k: nat)
    requires i < |s| && IsSpecial(s[i])
    ensures k < |EscapeMap(s)| && EscapeMap(s)[k] == '&'
    decreases |s|
  {
    var head, tail := EscapeChar(s[0]), EscapeMap(s[1..]);
    assert EscapeMap(s) == head + tail;
    if i == 0 {
      ReferenceStartsWithAmp(s[0]);
      k := 0;
    } else {
      assert s[1..][i - 1] == s[i];
      var j := AmpersandAppears(s[1..], i - 1);
      k := |head| + j;
      assert (head + tail)[k] == tail[j];
    }
  }

  lemma ReferenceStartsWithAmp(c: char)
    requires IsSpecial(c)
    ensures |EscapeChar(c)| > 0 && EscapeChar(c)[0] == '&'
  {
  }

  /** The example of the ampersand: "&" escapes to "&amp;", which escapes
      to "&amp;amp;". */
  lemma EscapeAmpersandTwice(s: string)
    requires s == "&"
    ensures EscapeHtml(s) == "&amp;" && EscapeHtml(EscapeHtml(s)) == "&amp;amp;"
  {
    EscapeOfAmpersand(s);
    EscapeOfReference(EscapeHtml(s));
  }

  lemma EscapeOfAmpersand(s: string)
    requires s == "&"
    ensures EscapeMap(s) == "&amp;"
  {
    EscapeMapOne('&');
    assert s == ['&'];
  }

  lemma EscapeOfReference(e: string)
    requires e == "&amp;"
    ensures EscapeMap(e) == "&amp;amp;"
  {
    var t := "amp;";
    assert e == ['&'] + t;
    AmpThenPlain(t);
    AmpAmp();
  }

  /** An `&` followed by plain text escapes to "&amp;" and the same text. */
  lemma AmpThenPlain(t: string)
    requires forall i :: 0 <= i < |t| ==> !IsSpecial(t[i])
    ensures EscapeMap(['&'] + t) == "&amp;" + t
  {
    EscapeUnchanged(t);
    EscapeMapAppend(['&'], t);
    EscapeOfAmpersand(['&']);
  }

  lemma AmpAmp()
    ensures "&amp;" + "amp;" == "&amp;amp;"
  {
  }

  lemma EscapeMapOne(c: char)
    ensures EscapeMap([c]) == EscapeChar(c)
  {
    assert [c][1..] == [];
  }

  lemma {:induction false} EscapeMapAppend(a: string, b: string)
    ensures EscapeMap(a + b) == EscapeMap(a) + EscapeMap(b)
    decreases |a|
  {
    if |a| > 0 {
      assert (a + b)[1..] == a[1..] + b;
      EscapeMapAppend(a[1..], b);
    } else {
      assert a + b == b;
    }
  }


  // ---------------------------------------------------------------------
  // Decoding: the five references back to their characters.

  predicate StartsWith(s: string, p: string) {
    |p| <= |s| && s[..|p|] == p
  }

  /** The inverse of the escape: each of the five references the escape
      produces becomes its character again; everything else is copied. */
  function Unescape(s: string): (r: string)
    ensures |r| <= |s|
    decreases |s|
  {
    if |s| == 0 then []
    else if StartsWith(s, "&amp;") then ['&'] + Unescape(s[5..])
    else if StartsWith(s, "&lt;") then ['<'] + Unescape(s[4..])
    else if StartsWith(s, "&gt;") then ['>'] + Unescape(s[4..])
    else if StartsWith(s, "&quot;") then ['"'] + Unescape(s[6..])
    else if StartsWith(s, "&#039;") then ['\''] + Unescape(s[6..])
    else [s[0]] + Unescape(s[1..])
  }

  lemma StartsWithAppend(p: string, rest: string)
    ensures StartsWith(p + rest, p) && (p + rest)[|p|..] == rest
  {
    assert (p + rest)[..|p|] == p;
  }

  /** Two patterns that differ in their second character never both start
      the same string. */
  lemma NotBoth(s: string, p: string, q: string)
    requires |p| > 1 && |q| > 1 && p[1] != q[1]
    ensures !(StartsWith(s, p) && StartsWith(s, q))
  {
    if StartsWith(s, p) {
      assert s[1] == s[..|p|][1] == p[1];
      if |q| <= |s| {
        assert s[..|q|][1] != q[1];
      }
    }
  }

  /** A string that starts with some other character starts with no
      reference. */
  lemma NoReference(s: string, p: string)
    requires |s| > 0 && |p| > 0 && s[0] != p[0]
    ensures !StartsWith(s, p)
  {
    if |p| <= |s| {
      assert s[..|p|][0] != p[0];
    }
  }

  /** Decoding undoes the escape of one character, whatever follows it. */
  lemma UnescapeChar(c: char, rest: string)
    ensures Unescape(EscapeChar(c) + rest) == [c] + Unescape(rest)
  {
    var e := EscapeChar(c);
    var s := e + rest;
    StartsWithAppend(e, rest);
    if c == '&' {
    } else if c == '<' {
      NotBoth(s, e, "&amp;");
    } else if c == '>' {
      NotBoth(s, e, "&amp;");
      NotBoth(s, e, "&lt;");
    } else if c == '"' {
      NotBoth(s, e, "&amp;");
      NotBoth(s, e, "&lt;");
      NotBoth(s, e, "&gt;");
    } else if c == '\'' {
      NotBoth(s, e, "&amp;");
      NotBoth(s, e, "&lt;");
      NotBoth(s, e, "&gt;");
      NotBoth(s, e, "&quot;");
    } else {
      assert s[0] == c;
      NoReference(s, "&amp;");
      NoReference(s, "&lt;");
      NoReference(s, "&gt;");
      NoReference(s, "&quot;");
      NoReference(s, "&#039;");
    }
  }

  /** Escaping loses nothing: decoding the escaped text gives back the
      original, so two different notes never render as the same text. */
  lemma EscapeHtmlRoundTrip(s: string)
    ensures Unescape(EscapeHtml(s)) == s
  {
    UnescapeMap(s);
  }

  lemma {:induction false} UnescapeMap(s: string)
    ensures Unescape(EscapeMap(s)) == s
    decreases |s|
  {
    if |s| > 0 {
      UnescapeMap(s[1..]);
      assert EscapeMap(s) == EscapeChar(s[0]) + EscapeMap(s[1..]);
      UnescapeChar(s[0], EscapeMap(s[1..]));
      assert s == [s[0]] + s[1..];
    }
  }

  /** Hence the escape is injective. */
  lemma EscapeHtmlInjective(a: string, b: string)
    requires EscapeHtml(a) == EscapeHtml(b)
    ensures a == b
  {
    EscapeHtmlRoundTrip(a);
    EscapeHtmlRoundTrip(b);
  }
}

=== FILE: migrate.dfy ===
/** scripts/migrate.js: applies the `.sql` files of the migrations directory
    in sorted order, each at most once, recording every applied file's name
    in the `migrations` table inside the same transaction as its SQL. The
    SQL engine is not visible: whether a file's SQL succeeds is an oracle
    `sqlOk` supplied by the caller. */
module Migrate {
  import opened Wrappers
  import opened Strings

  // ---------------------------------------------------------------------
  // Choosing the files

  const SqlSuffix := ".sql"

  /** `files.filter(f => f.endsWith('.sql'))`: keeps the `.sql` names in
      their order. */
  function FilterSql(files: seq<string>): (r: seq<string>)
    ensures forall x :: x in r <==> x in files && EndsWith(x, SqlSuffix)
    ensures |r| <= |files|
    ensures forall x :: EndsWith(x, SqlSuffix) ==> multiset(r)[x] == multiset(files)[x]
  {
    if |files| == 0 then
      []
    else
      var rest := FilterSql(files[1..]);
      assert files == [files[0]] + files[1..];
      assert multiset(files) == multiset{files[0]} + multiset(files[1..]);
      if EndsWith(files[0], SqlSuffix) then [files[0]] + rest else rest
  }

  /** Ascending order under the string comparison of the default `sort()`. */
  predicate Sorted(s: seq<string>) {
    forall i, j :: 0 <= i < j < |s| ==> LexLe(s[i], s[j])
  }

  /** Inserts `x` before the first element it does not follow. */
  function InsertSorted(x: string, s: seq<string>): (r: seq<string>)
    requires Sorted(s)
    ensures Sorted(r)
    ensures multiset(r) == multiset(s) + multiset{x}
  {
    if |s| == 0 then
      [x]
    else if LexLe(x, s[0]) then
      InsertFront(x, s);
      [x] + s
    else
      LexLeTotal(x, s[0]);
      var rest := InsertSorted(x, s[1..]);
      assert s == [s[0]] + s[1..];
      InsertBehind(s[0], x, s[1..], rest);
      [s[0]] + rest
  }

  lemma InsertFront(x: string, s: seq<string>)
    requires Sorted(s) && |s| > 0 && LexLe(x, s[0])
    ensures Sorted([x] + s)
  {
    var r := [x] + s;
    forall i, j | 0 <= i < j < |r| ensures LexLe(r[i], r[j]) {
      if i == 0 && j > 1 {
        LexLeTransitive(x, s[0], s[j - 1]);
      }
    }
  }

  lemma InsertBehind(h: string, x: string, s: seq<string>, rest: seq<string>)
    requires Sorted([h] + s) && LexLe(h, x)
    requires Sorted(rest) && multiset(rest) == multiset(s) + multiset{x}
    ensures Sorted([h] + rest)
  {
    var r := [h] + rest;
    forall i, j | 0 <= i < j < |r| ensures LexLe(r[i], r[j]) {
      if i == 0 {
        var y := rest[j - 1];
        assert r[0] == h && r[j] == y;
        assert y in multiset(rest);
        if y != x {
          assert y in multiset(s);
          SortedHeadFirst([h] + s, y);
        }
      } else {
        assert r[i] == rest[i - 1] && r[j] == rest[j - 1];
      }
    }
  }

  /** The head of a sorted list precedes every element of it. */
  lemma SortedHeadFirst(s: seq<string>, y: string)
    requires Sorted(s) && y in s
    ensures LexLe(s[0], y)
  {
    var k :| 0 <= k < |s| && s[k] == y;
    if k == 0 {
      LexLeReflexive(y);
    }
  }

  lemma {:induction false} LexLeReflexive(a: string)
    ensures LexLe(a, a)
    decreases |a|
  {
    if |a| > 0 {
      LexLeReflexive(a[1..]);
    }
  }

  /** `sort()` on names: a sorted permutation. */
  function SortNames(s: seq<string>): (r: seq<string>)
    ensures Sorted(r)
    ensures multiset(r) == multiset(s)
  {
    if |s| == 0 then
      []
    else
      assert s == [s[0]] + s[1..];
      InsertSorted(s[0], SortNames(s[1..]))
  }

  /** There is only one sorted arrangement of a collection of names, so
      any correct sort yields the same list as `SortNames`. */
  lemma {:induction false} SortedUnique(a: seq<string>, b: seq<string>)
    requires Sorted(a) && Sorted(b) && multiset(a) == multiset(b)
    ensures a == b
    decreases |a|
  {
    if |a| > 0 {
      assert |b| == |multiset(b)| == |a|;
      SameHead(a, b);
      SameRest(a, b);
      SortedTail(a);
      SortedTail(b);
      SortedUnique(a[1..], b[1..]);
      assert a == [a[0]] + a[1..] && b == [b[0]] + b[1..];
    }
  }

  lemma SameHead(a: seq<string>, b: seq<string>)
    requires Sorted(a) && Sorted(b) && multiset(a) == multiset(b) && |a| > 0 && |b| > 0
    ensures a[0] == b[0]
  {
    assert a[0] in multiset(b) && b[0] in multiset(a);
    SortedHeadFirst(b, a[0]);
    SortedHeadFirst(a, b[0]);
    LexLeAntisymmetric(a[0], b[0]);
  }

  lemma SameRest(a: seq<string>, b: seq<string>)
    requires multiset(a) == multiset(b) && |a| > 0 && |b| > 0 && a[0] == b[0]
    ensures multiset(a[1..]) == multiset(b[1..])
  {
    assert a == [a[0]] + a[1..] && b == [b[0]] + b[1..];
    assert multiset(a) == multiset{a[0]} + multiset(a[1..]);
    assert multiset(b) == multiset{b[0]} + multiset(b[1..]);
    assert multiset(a[1..]) == multiset(a) - multiset{a[0]};
    assert multiset(b[1..]) == multiset(b) - multiset{b[0]};
  }

  lemma SortedTail(s: seq<string>)
    requires Sorted(s) && |s| > 0
    ensures Sorted(s[1..])
  {
  }

  /** `files.filter(f => f.endsWith('.sql')).sort()`: exactly the `.sql`
      names, each as often as listed, in ascending order. */
  function SqlFiles(files: seq<string>): (r: seq<string>)
    ensures Sorted(r)
    ensures forall x :: x in r <==> x in files && EndsWith(x, SqlSuffix)
    ensures forall x :: EndsWith(x, SqlSuffix) ==> multiset(r)[x] == multiset(files)[x]
  {
    var kept := FilterSql(files);
    var r := SortNames(kept);
    assert forall x :: x in r <==> x in multiset(kept);
    r
  }

  // ---------------------------------------------------------------------
  // The migrations table

  /** `CREATE TABLE IF NOT EXISTS migrations`: a missing table is created
      empty; an existing table keeps its rows. The table is the list of
      recorded names in insertion order. */
  function EnsureMigrationsTable(table: Option<seq<string>>): (r: seq<string>)
    ensures table.Some? ==> r == table.value
    ensures table.None? ==> r == []
  {
    match table
    case Some(names) => names
    case None => []
  }

  /** Creating the table a second time changes nothing. */
  lemma EnsureMigrationsTableIdempotent(table: Option<seq<string>>)
    ensures EnsureMigrationsTable(Some(EnsureMigrationsTable(table))) == EnsureMigrationsTable(table)
  {
  }

  // ---------------------------------------------------------------------
  // The run

  datatype Outcome = Completed | Failed(name: string)

  /** Where a run stops, the names recorded after it, and the names whose
      SQL was run (committed or, for the failing one, rolled back). */
  datatype Run = Run(outcome: Outcome, recorded: seq<string>, attempted: seq<string>)

  /** The loop of `runMigration` over the sorted files: a recorded name is
      skipped; otherwise its SQL runs in a transaction that also records
      the name; a failure rolls both back and ends the run. */
  function RunFrom(files: seq<string>, recorded: seq<string>, sqlOk: string -> bool): (r: Run)
    ensures |recorded| <= |r.recorded| && r.recorded[..|recorded|] == recorded
    ensures r.outcome.Completed? ==> r.recorded == recorded + r.attempted
    ensures r.outcome.Failed? ==>
      && |r.attempted| > 0
      && r.attempted[|r.attempted| - 1] == r.outcome.name
      && r.recorded + [r.outcome.name] == recorded + r.attempted
    ensures r.outcome.Failed? ==> !sqlOk(r.outcome.name) && r.outcome.name !in r.recorded
    decreases |files|
  {
    if |files| == 0 then
      Run(Completed, recorded, [])
    else
      var name := files[0];
      if name in recorded then
        RunFrom(files[1..], recorded, sqlOk)
      else if !sqlOk(name) then
        Run(Failed(name), recorded, [name])
      else
        Then([name], RunFrom(files[1..], recorded + [name], sqlOk))
  }

  /** Only listed files that were not recorded beforehand are ever
      attempted. */
  lemma {:induction false} AttemptedAreNew(files: seq<string>, recorded: seq<string>, sqlOk: string -> bool)
    ensures forall x :: x in RunFrom(files, recorded, sqlOk).attempted ==> x in files && x !in recorded
    decreases |files|
  {
    if |files| > 0 {
      var name := files[0];
      if name in recorded {
        AttemptedAreNew(files[1..], recorded, sqlOk);
      } else if sqlOk(name) {
        AttemptedAreNew(files[1..], recorded + [name], sqlOk);
      }
    }
  }

  /** A name is added to the table only after its SQL succeeded. */
  lemma {:induction false} RecordedAfterSuccess(files: seq<string>, recorded: seq<string>, sqlOk: string -> bool)
    ensures forall x :: x in RunFrom(files, recorded, sqlOk).recorded && x !in recorded ==> sqlOk(x)
    decreases |files|
  {
    if |files| > 0 {
      var name := files[0];
      if name in recorded {
        RecordedAfterSuccess(files[1..], recorded, sqlOk);
      } else if sqlOk(name) {
        RecordedAfterSuccess(files[1..], recorded + [name], sqlOk);
      }
    }
  }

  /** A run preceded by the names `done` already attempted. */
  function Then(done: seq<string>, r: Run): Run {
    Run(r.outcome, r.recorded, done + r.attempted)
  }

  /** Once a run fails, the files listed after the failing one are never
      looked at. */
  lemma {:induction false} FailureStops(a: seq<string>, b: seq<string>, recorded: seq<string>, sqlOk: string -> bool)
    requires RunFrom(a, recorded, sqlOk).outcome.Failed?
    ensures RunFrom(a + b, recorded, sqlOk) == RunFrom(a, recorded, sqlOk)
    decreases |a|
  {
    assert |a| > 0;
    assert (a + b)[0] == a[0] && (a + b)[1..] == a[1..] + b;
    if a[0] !in recorded && !sqlOk(a[0]) {
    } else if a[0] in recorded {
      FailureStops(a[1..], b, recorded, sqlOk);
    } else {
      FailureStops(a[1..], b, recorded + [a[0]], sqlOk);
    }
  }

  /** A completed run over `a` followed by the files `b` is the run over
      `b` from where the first left off. */
  lemma {:induction false} CompletedThenContinue(a: seq<string>, b: seq<string>, recorded: seq<string>, sqlOk: string -> bool)
    requires RunFrom(a, recorded, sqlOk).outcome.Completed?
    ensures var first := RunFrom(a, recorded, sqlOk);
      RunFrom(a + b, recorded, sqlOk) == Then(first.attempted, RunFrom(b, first.recorded, sqlOk))
    decreases |a|
  {
    if |a| == 0 {
      assert a + b == b;
    } else {
      var ab := a + b;
      assert ab[0] == a[0] && ab[1..] == a[1..] + b;
      var name := a[0];
      if name in recorded {
        CompletedThenContinue(a[1..], b, recorded, sqlOk);
      } else {
        var next := recorded + [name];
        var rest := RunFrom(a[1..], next, sqlOk);
        assert RunFrom(a, recorded, sqlOk) == Then([name], rest);
        CompletedThenContinue(a[1..], b, next, sqlOk);
        ThenThen([name], rest.attempted, RunFrom(b, rest.recorded, sqlOk));
      }
    }
  }

  lemma NothingBefore(r: Run)
    ensures Then([], r) == r
  {
    assert [] + r.attempted == r.attempted;
  }

  lemma ThenThen(x: seq<string>, y: seq<string>, r: Run)
    ensures Then(x, Then(y, r)) == Then(x + y, r)
  {
    assert x + (y + r.attempted) == (x + y) + r.attempted;
  }

  /** A completed run leaves every listed file recorded. */
  lemma {:induction false} CompletedRecordsAll(files: seq<string>, recorded: seq<string>, sqlOk: string -> bool)
    requires RunFrom(files, recorded, sqlOk).outcome.Completed?
    ensures forall x :: x in files ==> x in RunFrom(files, recorded, sqlOk).recorded
    decreases |files|
  {
    if |files| > 0 {
      var r := RunFrom(files, recorded, sqlOk);
      var next := if files[0] in recorded then recorded else recorded + [files[0]];
      CompletedRecordsAll(files[1..], next, sqlOk);
      var tail := RunFrom(files[1..], next, sqlOk);
      assert r.recorded == tail.recorded;
      assert files[0] in next;
      assert files[0] in tail.recorded by {
        var k :| 0 <= k < |next| && next[k] == files[0];
        assert tail.recorded[..|next|][k] == files[0];
      }
      forall x | x in files ensures x in r.recorded {
        if x != files[0] {
          assert x in files[1..];
        }
      }
    }
  }

  /** With every file already recorded, a run skips them all: it runs no
      SQL and changes nothing. */
  lemma {:induction false} AllRecordedIsNoop(files: seq<string>, recorded: seq<string>, sqlOk: string -> bool)
    requires forall x :: x in files ==> x in recorded
    ensures RunFrom(files, recorded, sqlOk) == Run(Completed, recorded, [])
    decreases |files|
  {
    if |files| > 0 {
      assert files[0] in files;
      forall x | x in files[1..] ensures x in recorded {
        assert x in files;
      }
      AllRecordedIsNoop(files[1..], recorded, sqlOk);
    }
  }

  /** Running the migrations again after a completed run executes nothing. */
  lemma SecondRunExecutesNothing(files: seq<string>, recorded: seq<string>, sqlOk: string -> bool)
    requires RunFrom(files, recorded, sqlOk).outcome.Completed?
    ensures var first := RunFrom(files, recorded, sqlOk);
      RunFrom(files, first.recorded, sqlOk) == Run(Completed, first.recorded, [])
  {
    CompletedRecordsAll(files, recorded, sqlOk);
    AllRecordedIsNoop(files, RunFrom(files, recorded, sqlOk).recorded, sqlOk);
  }

  predicate NoDuplicates(s: seq<string>) {
    forall i, j :: 0 <= i < j < |s| ==> s[i] != s[j]
  }

  /** A name is never recorded twice, even when it is listed twice. */
  lemma {:induction false} RecordsOnce(files: seq<string>, recorded: seq<string>, sqlOk: string -> bool)
    requires NoDuplicates(recorded)
    ensures NoDuplicates(RunFrom(files, recorded, sqlOk).recorded)
    decreases |files|
  {
    if |files| > 0 && files[0] !in recorded {
      var next := recorded + [files[0]];
      assert NoDuplicates(next) by {
        forall i, j | 0 <= i < j < |next| ensures next[i] != next[j] {
          if j == |recorded| {
            assert next[i] == recorded[i];
          }
        }
      }
      if sqlOk(files[0]) {
        RecordsOnce(files[1..], next, sqlOk);
      }
    } else if |files| > 0 {
      RecordsOnce(files[1..], recorded, sqlOk);
    }
  }

  /** One turn of the loop: the run from position `i` on. */
  lemma RunFromStep(files: seq<string>, i: nat, recorded: seq<string>, sqlOk: string -> bool)
    requires i < |files|
    ensures RunFrom(files[i..], recorded, sqlOk) ==
      if files[i] in recorded then RunFrom(files[i + 1..], recorded, sqlOk)
      else if !sqlOk(files[i]) then Run(Failed(files[i]), recorded, [files[i]])
      else Then([files[i]], RunFrom(files[i + 1..], recorded + [files[i]], sqlOk))
  {
    assert files[i..][0] == files[i] && files[i..][1..] == files[i + 1..];
  }

  /** The loop of `runMigration` passing over a file already recorded. */
  lemma SkipStep(files: seq<string>, i: nat, initial: seq<string>, recorded: seq<string>,
                 attempted: seq<string>, sqlOk: string -> bool)
    requires i < |files| && files[i] in recorded
    requires RunFrom(files, initial, sqlOk) == Then(attempted, RunFrom(files[i..], recorded, sqlOk))
    ensures RunFrom(files, initial, sqlOk) == Then(attempted, RunFrom(files[i + 1..], recorded, sqlOk))
  {
    RunFromStep(files, i, recorded, sqlOk);
  }

  /** The loop of `runMigration` applying and recording a new file. */
  lemma RecordStep(files: seq<string>, i: nat, initial: seq<string>, recorded: seq<string>,
                   attempted: seq<string>, sqlOk: string -> bool)
    requires i < |files| && files[i] !in recorded && sqlOk(files[i])
    requires RunFrom(files, initial, sqlOk) == Then(attempted, RunFrom(files[i..], recorded, sqlOk))
    ensures RunFrom(files, initial, sqlOk)
      == Then(attempted + [files[i]], RunFrom(files[i + 1..], recorded + [files[i]], sqlOk))
  {
    RunFromStep(files, i, recorded, sqlOk);
    ThenThen(attempted, [files[i]], RunFrom(files[i + 1..], recorded + [files[i]], sqlOk));
  }

  /** The loop of `runMigration` stopping at a file whose SQL fails. */
  lemma FailStep(files: seq<string>, i: nat, initial: seq<string>, recorded: seq<string>,
                 attempted: seq<string>, sqlOk: string -> bool)
    requires i < |files| && files[i] !in recorded && !sqlOk(files[i])
    requires RunFrom(files, initial, sqlOk) == Then(attempted, RunFrom(files[i..], recorded, sqlOk))
    ensures RunFrom(files, initial, sqlOk) == Run(Failed(files[i]), recorded, attempted + [files[i]])
  {
    RunFromStep(files, i, recorded, sqlOk);
  }

  /** `process.exit(1)` after a failure; a normal exit otherwise. */
  function ExitCode(outcome: Outcome): (code: int)
    ensures code == 0 <==> outcome.Completed?
    ensures code == 0 || code == 1
  {
    if outcome.Completed? then 0 else 1
  }

  /** The `for` loop of `runMigration`: each file not yet recorded is
      executed and then recorded; the first failure ends the run. */
  method ApplyPending(files: seq<string>, initial: seq<string>, sqlOk: string -> bool)
    returns (outcome: Outcome, recorded: seq<string>, attempted: seq<string>)
    ensures Run(outcome, recorded, attempted) == RunFrom(files, initial, sqlOk)
  {
    recorded, attempted, outcome := initial, [], Completed;
    var i := 0;
    assert files[i..] == files;
    NothingBefore(RunFrom(files, initial, sqlOk));
    assert RunFrom(files, initial, sqlOk) == Then(attempted, RunFrom(files[i..], recorded, sqlOk));
    while i < |files| && outcome.Completed?
      invariant 0 <= i <= |files|
      invariant outcome.Completed? ==>
        RunFrom(files, initial, sqlOk) == Then(attempted, RunFrom(files[i..], recorded, sqlOk))
      invariant outcome.Failed? ==> RunFrom(files, initial, sqlOk) == Run(outcome, recorded, attempted)
      decreases |files| - i
    {
      var name := files[i];
      if name in recorded {
        SkipStep(files, i, initial, recorded, attempted, sqlOk);
      } else if sqlOk(name) {
        RecordStep(files, i, initial, recorded, attempted, sqlOk);
        recorded, attempted := recorded + [name], attempted + [name];
      } else {
        FailStep(files, i, initial, recorded, attempted, sqlOk);
        outcome, attempted := Failed(name), attempted + [name];
      }
      assert outcome.Completed? ==>
        RunFrom(files, initial, sqlOk) == Then(attempted, RunFrom(files[i + 1..], recorded, sqlOk));
      i := i + 1;
    }
    if outcome.Completed? {
      assert files[i..] == [];
    }
  }

  /** `runMigration()`: prepares the table, chooses the files and runs the
      loop, stopping at the first failure. */
  method RunMigration(table: Option<seq<string>>, dir: seq<string>, sqlOk: string -> bool)
    returns (outcome: Outcome, recorded: seq<string>, attempted: seq<string>, exitCode: int)
    ensures Run(outcome, recorded, attempted) == RunFrom(SqlFiles(dir), EnsureMigrationsTable(table), sqlOk)
    ensures exitCode == 0 <==> outcome.Completed?
    ensures exitCode == 1 <==> outcome.Failed?
  {
    outcome, recorded, attempted := ApplyPending(SqlFiles(dir), EnsureMigrationsTable(table), sqlOk);
    exitCode := ExitCode(outcome);
  }
}

=== FILE: notes_service.dfy ===
/** The note service of services/notes-service.js: validation of the request
    body, an existence check before every update and delete, and the
    wrapping of every failure in an operation-specific message. Each call is
    atomic over the `notes` table of the Storage module. */
module NotesService {
  import opened Wrappers
  import opened Strings
  import Storage

  /** The JavaScript values a field of a parsed JSON body can hold (numbers
      restricted to integers). */
  datatype JsValue = Undefined | Null | Bool(b: bool) | Number(n: int) | Str(s: string)

  /** JavaScript truthiness: `undefined`, `null`, `false`, `0` and `""` are
      falsy. */
  predicate Truthy(v: JsValue) {
    match v
    case Undefined => false
    case Null => false
    case Bool(b) => b
    case Number(n) => n != 0
    case Str(s) => |s| > 0
  }

  /** The `{ title, content }` a request body is destructured into. */
  datatype NoteData = NoteData(title: JsValue, content: JsValue)

  /** The rules `validateNoteData` checks, one per message it can throw. */
  datatype Violation = TitleRequired | ContentRequired | TitleTooLong | ContentTooLong

  /** The message each rule throws. The two presence messages read "Title
      is required and must be a non-empty string" and "Content is required
      and must be a non-empty string"; they are assembled around the word
      "required", which the routes search for. */
  function Message(v: Violation): string {
    match v
    case TitleRequired => "Title" + IsRequired
    case ContentRequired => "Content" + IsRequired
    case TitleTooLong => "Title" + MustBeLessThan + "100 characters"
    case ContentTooLong => "Content" + MustBeLessThan + "1000 characters"
  }

  /** Each rule throws its own message, so the message tells which rule
      failed: the four messages even differ in length. */
  lemma MessageDeterminesRule(v: Violation, w: Violation)
    requires Message(v) == Message(w)
    ensures v == w
  {
  }

  const IsRequired := " is " + "required" + " and must be" + " a non-empty string"
  const MustBeLessThan := " must be less than "

  const NotFound := "Note not found"

  const MaxTitleLength := 100
  const MaxContentLength := 1000

  const FetchNotesPrefix := "Failed to fetch notes: "
  const FetchNotePrefix := "Failed to fetch note: "
  const CreatePrefix := "Failed to create note: "
  const UpdatePrefix := "Failed to update note: "
  const DeletePrefix := "Failed to delete note: "

  /** The test in `validateNoteData`:
      `!v || typeof v !== 'string' || v.trim().length === 0`. */
  predicate FailsPresenceCheck(v: JsValue) {
    !Truthy(v) || !v.Str? || |Trim(v.s)| == 0
  }

  /** A string holding at least one non-whitespace character. */
  predicate IsNonBlankString(v: JsValue) {
    v.Str? && !AllWhitespace(v.s)
  }

  /** The presence check rejects exactly the values that are not non-blank
      strings: the empty string is caught as falsy, whitespace by `trim`. */
  lemma PresenceCheckMeaning(v: JsValue)
    ensures FailsPresenceCheck(v) <==> !IsNonBlankString(v)
  {
  }

  /** Data a note may be stored with. Lengths are JavaScript's `length`
      (UTF-16 code units) of the untrimmed strings, and both bounds are
      inclusive. */
  predicate IsValidNoteData(d: NoteData) {
    && IsNonBlankString(d.title)
    && IsNonBlankString(d.content)
    && |Utf16(d.title.s)| <= MaxTitleLength
    && |Utf16(d.content.s)| <= MaxContentLength
  }

  /** `validateNoteData`: the first failing rule, in the order title
      presence, content presence, title length, content length; `None` when
      every rule passes. */
  function ValidateNoteData(d: NoteData): (r: Option<Violation>)
    ensures r == None <==> IsValidNoteData(d)
    ensures r == Some(TitleRequired) <==> !IsNonBlankString(d.title)
    ensures r == Some(ContentRequired) <==> IsNonBlankString(d.title) && !IsNonBlankString(d.content)
    ensures r == Some(TitleTooLong) <==>
      IsNonBlankString(d.title) && IsNonBlankString(d.content) && |Utf16(d.title.s)| > MaxTitleLength
    ensures r == Some(ContentTooLong) <==>
      && IsNonBlankString(d.title) && IsNonBlankString(d.content)
      && |Utf16(d.title.s)| <= MaxTitleLength && |Utf16(d.content.s)| > MaxContentLength
  {
    PresenceCheckMeaning(d.title);
    PresenceCheckMeaning(d.content);
    if FailsPresenceCheck(d.title) then Some(TitleRequired)
    else if FailsPresenceCheck(d.content) then Some(ContentRequired)
    else if |Utf16(d.title.s)| > MaxTitleLength then Some(TitleTooLong)
    else if |Utf16(d.content.s)| > MaxContentLength then Some(ContentTooLong)
    else None
  }

  /** `getAllNotes`: every stored note, newest first, or the storage error
      behind "Failed to fetch notes: ". */
  function GetAllNotes(db: Storage.Db): (r: Result<seq<Storage.Note>, string>)
    requires Storage.ValidDb(db)
    ensures r.Ok? <==> db.notes.Some?
    ensures r.Ok? ==> Storage.NewestFirst(r.value)
    ensures r.Ok? ==> forall x :: multiset(r.value)[x] == if Storage.IsRow(db.notes.value, x) then 1 else 0
    ensures r.Err? ==> r.error == FetchNotesPrefix + Storage.NoSuchTable
  {
    match Storage.GetAllNotes(db)
    case Ok(notes) => Ok(notes)
    case Err(e) => Err(FetchNotesPrefix + e)
  }

  /** `getNoteById`: the stored note, or "Failed to fetch note: Note not
      found" when no row has the id. */
  function GetNoteById(db: Storage.Db, id: int): (r: Result<Storage.Note, string>)
    requires Storage.ValidDb(db)
    ensures r.Ok? <==> db.notes.Some? && id in db.notes.value.rows
    ensures r.Ok? ==> r.value.id == id && Storage.IsRow(db.notes.value, r.value)
    ensures r.Err? && db.notes.Some? ==> r.error == FetchNotePrefix + NotFound
    ensures r.Err? && db.notes.None? ==> r.error == FetchNotePrefix + Storage.NoSuchTable
  {
    match Storage.GetNoteById(db, id)
    case Err(e) => Err(FetchNotePrefix + e)
    case Ok(None) => Err(FetchNotePrefix + NotFound)
    case Ok(Some(note)) => Ok(note)
  }

  /** `createNote`: validates, then inserts title and content exactly as
      given (untrimmed). Every failure leaves the database as it was. */
  function CreateNote(db: Storage.Db, d: NoteData, now: nat): (r: Storage.Step<Storage.RunResult>)
    requires Storage.ValidDb(db)
    ensures Storage.ValidDb(r.db)
    ensures r.result.Ok? <==> IsValidNoteData(d) && db.notes.Some?
    ensures r.result.Err? ==> r.db == db
    ensures !IsValidNoteData(d) ==> r.result == Err(CreatePrefix + Message(ValidateNoteData(d).value))
    ensures IsValidNoteData(d) && db.notes.None? ==> r.result == Err(CreatePrefix + Storage.NoSuchTable)
    ensures r.result.Ok? ==> r.result.value.changes == 1 && r.db.notes.Some?
    ensures r.result.Ok? ==> r.result.value.id !in db.notes.value.rows && r.result.value.id >= db.notes.value.nextId
    ensures r.result.Ok? ==>
      r.db.notes.value.rows == db.notes.value.rows[r.result.value.id := Storage.Note(r.result.value.id, d.title.s, d.content.s, now, now)]
  {
    match ValidateNoteData(d)
    case Some(v) => Storage.Step(Err(CreatePrefix + Message(v)), db)
    case None =>
      var step := Storage.CreateNote(db, d.title.s, d.content.s, now);
      match step.result
      case Ok(run) => step
      case Err(e) => Storage.Step(Err(CreatePrefix + e), step.db)
  }

  /** `updateNote`: validates first, then checks that the note exists, then
      rewrites title, content and `updated_at`. Every failure leaves the
      database as it was. */
  function UpdateNote(db: Storage.Db, id: int, d: NoteData, now: nat): (r: Storage.Step<Storage.RunResult>)
    requires Storage.ValidDb(db)
    ensures Storage.ValidDb(r.db)
    ensures r.result.Ok? <==> IsValidNoteData(d) && db.notes.Some? && id in db.notes.value.rows
    ensures r.result.Err? ==> r.db == db
    ensures !IsValidNoteData(d) ==> r.result == Err(UpdatePrefix + Message(ValidateNoteData(d).value))
    ensures IsValidNoteData(d) && db.notes.None? ==> r.result == Err(UpdatePrefix + Storage.NoSuchTable)
    ensures IsValidNoteData(d) && db.notes.Some? && id !in db.notes.value.rows ==>
      r.result == Err(UpdatePrefix + NotFound)
    ensures r.result.Ok? ==>
      var t := db.notes.value;
      && r.result.value.changes == 1
      && r.db.notes.Some?
      && r.db.notes.value.rows == t.rows[id := Storage.Note(id, d.title.s, d.content.s, t.rows[id].createdAt, now)]
      && r.db.notes.value.nextId == t.nextId
  {
    match ValidateNoteData(d)
    case Some(v) => Storage.Step(Err(UpdatePrefix + Message(v)), db)
    case None =>
      match Storage.GetNoteById(db, id)
      case Err(e) => Storage.Step(Err(UpdatePrefix + e), db)
      case Ok(None) => Storage.Step(Err(UpdatePrefix + NotFound), db)
      case Ok(Some(existing)) =>
        var step := Storage.UpdateNote(db, id, d.title.s, d.content.s, now);
        match step.result
        case Ok(run) => step
        case Err(e) => Storage.Step(Err(UpdatePrefix + e), step.db)
  }

  /** `deleteNote`: checks that the note exists, then removes exactly that
      row. Every failure leaves the database as it was. */
  function DeleteNote(db: Storage.Db, id: int): (r: Storage.Step<Storage.RunResult>)
    requires Storage.ValidDb(db)
    ensures Storage.ValidDb(r.db)
    ensures r.result.Ok? <==> db.notes.Some? && id in db.notes.value.rows
    ensures r.result.Err? ==> r.db == db
    ensures db.notes.None? ==> r.result == Err(DeletePrefix + Storage.NoSuchTable)
    ensures db.notes.Some? && id !in db.notes.value.rows ==> r.result == Err(DeletePrefix + NotFound)
    ensures r.result.Ok? ==>
      var t := db.notes.value;
      && r.result.value.changes == 1
      && r.db.notes.Some?
      && r.db.notes.value.rows == t.rows - {id}
      && r.db.notes.value.nextId == t.nextId
  {
    match Storage.GetNoteById(db, id)
    case Err(e) => Storage.Step(Err(DeletePrefix + e), db)
    case Ok(None) => Storage.Step(Err(DeletePrefix + NotFound), db)
    case Ok(Some(existing)) =>
      var step := Storage.DeleteNote(db, id);
      match step.result
      case Ok(run) => step
      case Err(e) => Storage.Step(Err(DeletePrefix + e), step.db)
  }

  /** A created note reads back with the title and content it was given. */
  lemma CreateThenGet(db: Storage.Db, d: NoteData, now: nat)
    requires Storage.ValidDb(db) && db.notes.Some? && IsValidNoteData(d)
    ensures var step := CreateNote(db, d, now);
      && step.result.Ok?
      && GetNoteById(step.db, step.result.value.id)
         == Ok(Storage.Note(step.result.value.id, d.title.s, d.content.s, now, now))
  {
    var step := CreateNote(db, d, now);
    var id := step.result.value.id;
    assert Storage.IsRow(step.db.notes.value, Storage.Note(id, d.title.s, d.content.s, now, now));
  }

  /** An updated note reads back with the new title, content and
      `updated_at`, and its original `created_at`. */
  lemma UpdateThenGet(db: Storage.Db, id: int, d: NoteData, now: nat)
    requires Storage.ValidDb(db) && db.notes.Some? && id in db.notes.value.rows && IsValidNoteData(d)
    ensures GetNoteById(UpdateNote(db, id, d, now).db, id)
      == Ok(Storage.Note(id, d.title.s, d.content.s, db.notes.value.rows[id].createdAt, now))
  {
    var step := UpdateNote(db, id, d, now);
    assert Storage.IsRow(step.db.notes.value,
      Storage.Note(id, d.title.s, d.content.s, db.notes.value.rows[id].createdAt, now));
  }

  /** After a delete, the note is gone: reading it fails with "Note not
      found", and deleting it again fails the same way. */
  lemma DeleteThenGet(db: Storage.Db, id: int)
    requires Storage.ValidDb(db) && db.notes.Some? && id in db.notes.value.rows
    ensures var step := DeleteNote(db, id);
      && step.result.Ok?
      && GetNoteById(step.db, id) == Err(FetchNotePrefix + NotFound)
      && DeleteNote(step.db, id).result == Err(DeletePrefix + NotFound)
  {
  }
}

=== FILE: routes.dfy ===
/** The route handlers of routes/notes.js: each calls one service operation
    and turns its outcome into an HTTP status and body. Errors are told apart
    only by case-sensitive substring tests on their message, so the status a
    failure gets depends on the exact wording of the service's messages. */
module Routes {
  import opened Wrappers
  import opened Strings
  import Storage
  import NotesService

  datatype Body =
    | NoBody
    | ErrorJson(error: string)
    | NotesJson(notes: seq<Storage.Note>)
    | NoteJson(note: Storage.Note)
    | RunJson(run: Storage.RunResult)

  datatype Response = Response(status: int, body: Body)

  /** A response together with the database after the request. */
  datatype Exchange = Exchange(response: Response, db: Storage.Db)

  datatype Route = ListNotes | ListTags | GetNote | CreateNote | UpdateNote | DeleteNote

  const NotFoundNeedle := "not found"
  const RequiredNeedle := "required"

  /** The TypeErrors thrown by calling service methods that do not exist. */
  const GetNotesByTagMissing := "notesService.getNotesByTag is not a function"
  const GetAllTagsMissing := "notesService.getAllTags is not a function"

  /** The status each handler's `catch` block chooses for an error message:
      the list routes always answer 500; GET and DELETE by id test for "not
      found"; POST tests for "required"; PUT tests "not found" before
      "required". */
  function ErrorStatus(route: Route, message: string): (status: int)
    ensures status == 404 <==>
      (route == GetNote || route == UpdateNote || route == DeleteNote) && Contains(message, NotFoundNeedle)
    ensures status == 400 <==>
      || (route == CreateNote && Contains(message, RequiredNeedle))
      || (route == UpdateNote && !Contains(message, NotFoundNeedle) && Contains(message, RequiredNeedle))
    ensures status == 500 || status == 400 || status == 404
  {
    match route
    case ListNotes => 500
    case ListTags => 500
    case GetNote => if Contains(message, NotFoundNeedle) then 404 else 500
    case DeleteNote => if Contains(message, NotFoundNeedle) then 404 else 500
    case CreateNote => if Contains(message, RequiredNeedle) then 400 else 500
    case UpdateNote =>
      if Contains(message, NotFoundNeedle) then 404
      else if Contains(message, RequiredNeedle) then 400
      else 500
  }

  function Failure(route: Route, message: string): Response {
    Response(ErrorStatus(route, message), ErrorJson(message))
  }

  /** `GET /`: a truthy `?tag=` calls the missing `getNotesByTag`; otherwise
      all notes are listed. */
  function HandleListNotes(db: Storage.Db, tag: Option<string>): (r: Response)
    requires Storage.ValidDb(db)
    ensures r.status == 200 || r.status == 500
    ensures r.status == 200 <==> (tag.None? || |tag.value| == 0) && db.notes.Some?
    ensures r.status == 200 ==> r.body.NotesJson? && Storage.NewestFirst(r.body.notes)
    ensures r.status == 200 ==>
      forall x :: multiset(r.body.notes)[x] == if Storage.IsRow(db.notes.value, x) then 1 else 0
    ensures r.status == 500 ==> r.body.ErrorJson?
  {
    if tag.Some? && |tag.value| > 0 then
      Failure(ListNotes, GetNotesByTagMissing)
    else
      match NotesService.GetAllNotes(db)
      case Ok(notes) => Response(200, NotesJson(notes))
      case Err(e) => Failure(ListNotes, e)
  }

  /** `GET /tags`: calls the missing `getAllTags`. */
  function HandleListTags(db: Storage.Db): (r: Response)
    ensures r.status == 500 && r.body.ErrorJson?
  {
    Failure(ListTags, GetAllTagsMissing)
  }

  /** `GET /:id`. */
  function HandleGetNote(db: Storage.Db, id: int): (r: Response)
    requires Storage.ValidDb(db)
    ensures r.status == 200 <==> db.notes.Some? && id in db.notes.value.rows
    ensures r.status == 200 ==> r.body == NoteJson(db.notes.value.rows[id])
    ensures r.status != 200 ==> r.body.ErrorJson?
  {
    match NotesService.GetNoteById(db, id)
    case Ok(note) => Response(200, NoteJson(note))
    case Err(e) => Failure(GetNote, e)
  }

  /** `POST /`: answers 201 with the insert's `{ id, changes }`. */
  function HandleCreateNote(db: Storage.Db, d: NotesService.NoteData, now: nat): (r: Exchange)
    requires Storage.ValidDb(db)
    ensures r.response.status == 201 <==> NotesService.IsValidNoteData(d) && db.notes.Some?
    ensures r.response.status == 201 ==>
      && r.response.body.RunJson? && r.response.body.run.changes == 1
      && r.response.body.run.id !in db.notes.value.rows
      && r.db.notes.Some? && r.response.body.run.id in r.db.notes.value.rows
    ensures r.response.status == 201 ==>
      r.db.notes.value.rows == db.notes.value.rows[r.response.body.run.id :=
        Storage.Note(r.response.body.run.id, d.title.s, d.content.s, now, now)]
    ensures r.response.status != 201 ==> r.response.body.ErrorJson? && r.db == db
  {
    var step := NotesService.CreateNote(db, d, now);
    match step.result
    case Ok(run) => Exchange(Response(201, RunJson(run)), step.db)
    case Err(e) => Exchange(Failure(CreateNote, e), step.db)
  }

  /** `PUT /:id`: answers 200 with the update's `{ id, changes }`. */
  function HandleUpdateNote(db: Storage.Db, id: int, d: NotesService.NoteData, now: nat): (r: Exchange)
    requires Storage.ValidDb(db)
    ensures r.response.status == 200 <==>
      NotesService.IsValidNoteData(d) && db.notes.Some? && id in db.notes.value.rows
    ensures r.response.status == 200 ==>
      && r.response.body.RunJson? && r.response.body.run.changes == 1
      && r.db.notes.Some? && r.db.notes.value.rows.Keys == db.notes.value.rows.Keys
    ensures r.response.status == 200 ==>
      r.db.notes.value.rows == db.notes.value.rows[id :=
        Storage.Note(id, d.title.s, d.content.s, db.notes.value.rows[id].createdAt, now)]
    ensures r.response.status != 200 ==> r.response.body.ErrorJson? && r.db == db
  {
    var step := NotesService.UpdateNote(db, id, d, now);
    match step.result
    case Ok(run) => Exchange(Response(200, RunJson(run)), step.db)
    case Err(e) => Exchange(Failure(UpdateNote, e), step.db)
  }

  /** `DELETE /:id`: answers 204 with an empty body. */
  function HandleDeleteNote(db: Storage.Db, id: int): (r: Exchange)
    requires Storage.ValidDb(db)
    ensures r.response.status == 204 <==> db.notes.Some? && id in db.notes.value.rows
    ensures r.response.status == 204 ==>
      r.response.body == NoBody && r.db.notes.Some? && r.db.notes.value.rows == db.notes.value.rows - {id}
    ensures r.response.status != 204 ==> r.response.body.ErrorJson? && r.db == db
  {
    var step := NotesService.DeleteNote(db, id);
    match step.result
    case Ok(_) => Exchange(Response(204, NoBody), step.db)
    case Err(e) => Exchange(Failure(DeleteNote, e), step.db)
  }

  // The wording facts the status lemmas rest on.

  lemma NotFoundIsFound(prefix: string)
    ensures Contains(prefix + NotesService.NotFound, NotFoundNeedle)
  {
    assert prefix + NotesService.NotFound == prefix + "Note " + NotFoundNeedle + "";
    ContainsInfix(prefix + "Note ", NotFoundNeedle, "");
  }

  lemma RequiredMessagesSayRequired(prefix: string, v: NotesService.Violation)
    requires v == NotesService.TitleRequired || v == NotesService.ContentRequired
    ensures Contains(prefix + NotesService.Message(v), RequiredNeedle)
  {
    var field := if v == NotesService.TitleRequired then "Title" else "Content";
    var tail := " and must be" + " a non-empty string";
    assert prefix + NotesService.Message(v) == (prefix + field + " is ") + RequiredNeedle + tail;
    ContainsInfix(prefix + field + " is ", RequiredNeedle, tail);
  }

  /** No validation message says "not found": none has a lower-case 'f'. */
  lemma ViolationsNotFound(prefix: string, v: NotesService.Violation)
    requires 'f' !in prefix
    ensures !Contains(prefix + NotesService.Message(v), NotFoundNeedle)
  {
    NoLowerCaseF(v);
    MissingCharNotContained(prefix + NotesService.Message(v), NotFoundNeedle, 'f');
  }

  lemma NoLowerCaseF(v: NotesService.Violation)
    ensures 'f' !in NotesService.Message(v)
  {
    PiecesLackF();
  }

  lemma PiecesLackF()
    ensures 'f' !in NotesService.IsRequired && 'f' !in NotesService.MustBeLessThan
    ensures 'f' !in "Title" && 'f' !in "Content" && 'f' !in "100 characters" && 'f' !in "1000 characters"
  {
  }

  lemma NoLowerCaseQ(v: NotesService.Violation)
    requires v == NotesService.TitleTooLong || v == NotesService.ContentTooLong
    ensures 'q' !in NotesService.Message(v)
  {
    assert 'q' !in NotesService.MustBeLessThan;
  }

  /** The length messages do not say "required": they have no 'q'. */
  lemma LengthMessagesNotRequired(prefix: string, v: NotesService.Violation)
    requires v == NotesService.TitleTooLong || v == NotesService.ContentTooLong
    requires 'q' !in prefix
    ensures !Contains(prefix + NotesService.Message(v), RequiredNeedle)
  {
    NoLowerCaseQ(v);
    MissingCharNotContained(prefix + NotesService.Message(v), RequiredNeedle, 'q');
  }

  lemma NoSuchTableNotRequired(prefix: string)
    requires 'q' !in prefix
    ensures !Contains(prefix + Storage.NoSuchTable, RequiredNeedle)
  {
    MissingCharNotContained(prefix + Storage.NoSuchTable, RequiredNeedle, 'q');
  }

  lemma NoSuchTableNotFound(prefix: string)
    requires 'f' !in prefix
    ensures !Contains(prefix + Storage.NoSuchTable, NotFoundNeedle)
  {
    MissingCharNotContained(prefix + Storage.NoSuchTable, NotFoundNeedle, 'f');
  }

  /** "Failed to fetch note: SQLITE_ERROR: no such table: notes" holds every
      letter of "not found", but not the phrase: split it at its two 'h's. */
  lemma FetchNoSuchTableNotFound()
    ensures !Contains(NotesService.FetchNotePrefix + Storage.NoSuchTable, NotFoundNeedle)
  {
    var a, b, c, d := "Failed to fetc", " note: ", "SQLITE_ERROR: no suc", " table: notes";
    FetchNotePrefixSplit();
    NoSuchTableSplit();
    Regroup(a, b, c, d, 'h');
    MissingCharNotContained(a, NotFoundNeedle, 'u');
    MissingCharNotContained(b + c, NotFoundNeedle, 'f');
    MissingCharNotContained(d, NotFoundNeedle, 'f');
    SplitNotContained(b + c, 'h', d, NotFoundNeedle);
    SplitNotContained(a, 'h', b + c + ['h'] + d, NotFoundNeedle);
  }

  lemma FetchNotePrefixSplit()
    ensures NotesService.FetchNotePrefix == "Failed to fetc" + ['h'] + " note: "
  {
  }

  lemma NoSuchTableSplit()
    ensures Storage.NoSuchTable == "SQLITE_ERROR: no suc" + ['h'] + " table: notes"
  {
  }

  lemma Regroup(a: string, b: string, c: string, d: string, h: char)
    ensures (a + [h] + b) + (c + [h] + d) == a + [h] + (b + c + [h] + d)
  {
  }

  /** `GET /notes/:id` answers 200 with the note when it exists, 404 when the
      table has no such row, and 500 when the table itself is missing. */
  lemma GetNoteStatus(db: Storage.Db, id: int)
    requires Storage.ValidDb(db)
    ensures var r := HandleGetNote(db, id);
      && (r.status == 200 <==> db.notes.Some? && id in db.notes.value.rows)
      && (r.status == 200 ==> r.body == NoteJson(db.notes.value.rows[id]))
      && (r.status == 404 <==> db.notes.Some? && id !in db.notes.value.rows)
      && (r.status == 500 <==> db.notes.None?)
  {
    if db.notes.None? {
      FetchNoSuchTableNotFound();
    } else if id !in db.notes.value.rows {
      NotFoundIsFound(NotesService.FetchNotePrefix);
    }
  }

  /** `POST /notes` answers 201 when the data is valid, 400 only for the two
      "required" messages, and 500 for everything else, including a title
      over 100 characters or a content over 1000. */
  lemma CreateNoteStatus(db: Storage.Db, d: NotesService.NoteData, now: nat)
    requires Storage.ValidDb(db)
    ensures var r := HandleCreateNote(db, d, now).response;
      var v := NotesService.ValidateNoteData(d);
      && (r.status == 201 <==> v.None? && db.notes.Some?)
      && (r.status == 400 <==> v == Some(NotesService.TitleRequired) || v == Some(NotesService.ContentRequired))
      && (r.status == 500 <==>
            || v == Some(NotesService.TitleTooLong) || v == Some(NotesService.ContentTooLong)
            || (v.None? && db.notes.None?))
  {
    var v := NotesService.ValidateNoteData(d);
    if v.Some? {
      CreateInvalidStatus(db, d, now);
    } else if db.notes.None? {
      CreateNoTableStatus(db, d, now);
    }
  }

  lemma CreateInvalidStatus(db: Storage.Db, d: NotesService.NoteData, now: nat)
    requires Storage.ValidDb(db) && NotesService.ValidateNoteData(d).Some?
    ensures var x := NotesService.ValidateNoteData(d).value;
      HandleCreateNote(db, d, now).response.status
        == if x == NotesService.TitleRequired || x == NotesService.ContentRequired then 400 else 500
  {
    CreateViolationStatus(NotesService.ValidateNoteData(d).value);
  }

  lemma CreateNoTableStatus(db: Storage.Db, d: NotesService.NoteData, now: nat)
    requires db.notes.None?
    ensures NotesService.ValidateNoteData(d).None? ==> HandleCreateNote(db, d, now).response.status == 500
  {
    CreateNoSuchTableStatus();
  }

  lemma CreateNoSuchTableStatus()
    ensures ErrorStatus(CreateNote, NotesService.CreatePrefix + Storage.NoSuchTable) == 500
  {
    NoSuchTableNotRequired(NotesService.CreatePrefix);
  }

  lemma CreateViolationStatus(x: NotesService.Violation)
    ensures ErrorStatus(CreateNote, NotesService.CreatePrefix + NotesService.Message(x))
      == if x == NotesService.TitleRequired || x == NotesService.ContentRequired then 400 else 500
  {
    if x == NotesService.TitleRequired || x == NotesService.ContentRequired {
      RequiredMessagesSayRequired(NotesService.CreatePrefix, x);
    } else {
      LengthMessagesNotRequired(NotesService.CreatePrefix, x);
    }
  }

  /** `PUT /notes/:id` answers 200 on success, 400 for the "required"
      messages (even when the id is missing, since validation runs first),
      404 for a missing note with valid data, and 500 otherwise. */
  lemma UpdateNoteStatus(db: Storage.Db, id: int, d: NotesService.NoteData, now: nat)
    requires Storage.ValidDb(db)
    ensures var r := HandleUpdateNote(db, id, d, now).response;
      var v := NotesService.ValidateNoteData(d);
      && (r.status == 200 <==> v.None? && db.notes.Some? && id in db.notes.value.rows)
      && (r.status == 400 <==> v == Some(NotesService.TitleRequired) || v == Some(NotesService.ContentRequired))
      && (r.status == 404 <==> v.None? && db.notes.Some? && id !in db.notes.value.rows)
      && (r.status == 500 <==>
            || v == Some(NotesService.TitleTooLong) || v == Some(NotesService.ContentTooLong)
            || (v.None? && db.notes.None?))
  {
    var v := NotesService.ValidateNoteData(d);
    if v.Some? {
      UpdateInvalidStatus(db, id, d, now);
    } else if db.notes.None? {
      UpdateNoTableStatus(db, id, d, now);
    } else if id !in db.notes.value.rows {
      UpdateMissingStatus(db, id, d, now);
    }
  }

  lemma UpdateInvalidStatus(db: Storage.Db, id: int, d: NotesService.NoteData, now: nat)
    requires Storage.ValidDb(db) && NotesService.ValidateNoteData(d).Some?
    ensures var x := NotesService.ValidateNoteData(d).value;
      HandleUpdateNote(db, id, d, now).response.status
        == if x == NotesService.TitleRequired || x == NotesService.ContentRequired then 400 else 500
  {
    UpdateViolationStatus(NotesService.ValidateNoteData(d).value);
  }

  lemma UpdateNoTableStatus(db: Storage.Db, id: int, d: NotesService.NoteData, now: nat)
    requires db.notes.None?
    ensures NotesService.ValidateNoteData(d).None? ==> HandleUpdateNote(db, id, d, now).response.status == 500
  {
    UpdateNoSuchTableStatus();
  }

  lemma UpdateMissingStatus(db: Storage.Db, id: int, d: NotesService.NoteData, now: nat)
    requires Storage.ValidDb(db) && db.notes.Some? && id !in db.notes.value.rows
    ensures NotesService.ValidateNoteData(d).None? ==> HandleUpdateNote(db, id, d, now).response.status == 404
  {
    UpdateNotFoundStatus();
  }

  lemma UpdateViolationStatus(x: NotesService.Violation)
    ensures ErrorStatus(UpdateNote, NotesService.UpdatePrefix + NotesService.Message(x))
      == if x == NotesService.TitleRequired || x == NotesService.ContentRequired then 400 else 500
  {
    ViolationsNotFound(NotesService.UpdatePrefix, x);
    if x == NotesService.TitleRequired || x == NotesService.ContentRequired {
      RequiredMessagesSayRequired(NotesService.UpdatePrefix, x);
    } else {
      LengthMessagesNotRequired(NotesService.UpdatePrefix, x);
    }
  }

  lemma UpdateNoSuchTableStatus()
    ensures ErrorStatus(UpdateNote, NotesService.UpdatePrefix + Storage.NoSuchTable) == 500
  {
    NoSuchTableNotFound(NotesService.UpdatePrefix);
    NoSuchTableNotRequired(NotesService.UpdatePrefix);
  }

  lemma UpdateNotFoundStatus()
    ensures ErrorStatus(UpdateNote, NotesService.UpdatePrefix + NotesService.NotFound) == 404
  {
    NotFoundIsFound(NotesService.UpdatePrefix);
  }

  /** `DELETE /notes/:id` answers 204 with no body when the note existed,
      404 when it did not, and 500 when the table is missing. */
  lemma DeleteNoteStatus(db: Storage.Db, id: int)
    requires Storage.ValidDb(db)
    ensures var r := HandleDeleteNote(db, id).response;
      && (r.status == 204 <==> db.notes.Some? && id in db.notes.value.rows)
      && (r.status == 204 ==> r.body == NoBody)
      && (r.status == 404 <==> db.notes.Some? && id !in db.notes.value.rows)
      && (r.status == 500 <==> db.notes.None?)
  {
    if db.notes.None? {
      NoSuchTableNotFound(NotesService.DeletePrefix);
    } else if id !in db.notes.value.rows {
      NotFoundIsFound(NotesService.DeletePrefix);
    }
  }

  /** `GET /notes` fails with 500 whenever a non-empty tag is given, and
      otherwise answers 200 exactly when the table exists; `GET /notes/tags`
      always answers 500. */
  lemma ListStatus(db: Storage.Db, tag: Option<string>)
    requires Storage.ValidDb(db)
    ensures var r := HandleListNotes(db, tag);
      && (tag.Some? && tag.value != "" ==> r.status == 500)
      && (tag.None? || tag.value == "" ==> (r.status == 200 <==> db.notes.Some?))
      && (r.status == 200 || r.status == 500)
    ensures HandleListTags(db).status == 500
  {
  }
}

=== FILE: storage.dfy ===
/** The `notes` table that services/storage-service.js manages, with the
    semantics its SQL statements give it: an AUTOINCREMENT primary key,
    timestamps defaulting to CURRENT_TIMESTAMP, and UPDATE/DELETE by id that
    report an affected-row count rather than an error. The SQLite engine is
    replaced by an immutable table; the clock is a number supplied by the
    caller. */
module Storage {
  import opened Wrappers

  /** One row of `notes`. */
  datatype Note = Note(id: nat, title: string, content: string, createdAt: nat, updatedAt: nat)

  /** The rows keyed by id. `nextId` is one more than the largest id ever
      handed out (SQLite's `sqlite_sequence` entry plus one), so deleted ids
      stay used. `lastId` is the connection's last inserted rowid, which
      `run` reports as `id` after every statement. */
  datatype Table = Table(rows: map<nat, Note>, nextId: nat, lastId: nat)

  /** The database: the `notes` table exists once `initializeDatabase` ran. */
  datatype Db = Db(notes: Option<Table>)

  /** What `run` resolves with: `{ id: lastID, changes }`. */
  datatype RunResult = RunResult(id: nat, changes: nat)

  /** A statement's outcome together with the database after it. */
  datatype Step<+T> = Step(result: Result<T, string>, db: Db)

  /** The driver's error for any statement on `notes` before it exists. */
  const NoSuchTable := "SQLITE_ERROR: no such table: notes"

  /** The table `CREATE TABLE` makes: no rows, AUTOINCREMENT starting at 1. */
  const EmptyTable := Table(map[], 1, 0)

  /** The representation invariant: every key is an id already handed out,
      and each row carries its own key. */
  ghost predicate Valid(t: Table) {
    && t.nextId >= 1
    && t.lastId < t.nextId
    && forall k :: k in t.rows ==> 1 <= k < t.nextId && t.rows[k].id == k
  }

  ghost predicate ValidDb(db: Db) {
    db.notes.Some? ==> Valid(db.notes.value)
  }

  /** `x` is a row of `t`, stored under its own id. */
  predicate IsRow(t: Table, x: Note) {
    x.id in t.rows && t.rows[x.id] == x
  }

  /** `connect()` followed by `CREATE TABLE IF NOT EXISTS notes (...)`: the
      connection is new, so its last inserted rowid is 0; the table is
      created empty when there is none, and otherwise its rows and sequence
      are kept. */
  function InitializeDatabase(db: Db): (r: Db)
    requires ValidDb(db)
    ensures r.notes.Some? && Valid(r.notes.value)
    ensures r.notes.value.lastId == 0
    ensures db.notes.Some? ==> r.notes.value == db.notes.value.(lastId := 0)
    ensures db.notes.None? ==> r.notes.value.rows == map[] && r.notes.value.nextId == 1
  {
    if db.notes.Some? then Db(Some(db.notes.value.(lastId := 0))) else Db(Some(EmptyTable))
  }

  /** Running the schema bootstrap again changes nothing. */
  lemma InitializeIdempotent(db: Db)
    requires ValidDb(db)
    ensures InitializeDatabase(InitializeDatabase(db)) == InitializeDatabase(db)
  {
  }

  /** On a fresh connection no row has been inserted yet, so an update or a
      delete issued first reports `id` 0, whatever the table held before. */
  lemma WritesAfterConnectReportZero(db: Db, id: int, title: string, content: string, now: nat)
    requires ValidDb(db)
    ensures var c := InitializeDatabase(db);
      && UpdateNote(c, id, title, content, now).result.value.id == 0
      && DeleteNote(c, id).result.value.id == 0
  {
  }

  /** Most recently updated first. */
  predicate NewestFirst(s: seq<Note>) {
    forall i, j :: 0 <= i < j < |s| ==> s[i].updatedAt >= s[j].updatedAt
  }

  /** The rows with id below `n`, in ascending id order (a rowid scan). */
  function RowsBelow(t: Table, n: nat): (r: seq<Note>)
    requires Valid(t)
    ensures forall x :: multiset(r)[x] == if IsRow(t, x) && x.id < n then 1 else 0
  {
    if n == 0 then
      []
    else
      var prefix := RowsBelow(t, n - 1);
      var last := if n - 1 in t.rows then [t.rows[n - 1]] else [];
      assert forall x :: multiset(last)[x] == if IsRow(t, x) && x.id == n - 1 then 1 else 0;
      prefix + last
  }

  function InsertNewestFirst(x: Note, s: seq<Note>): (r: seq<Note>)
    requires NewestFirst(s)
    ensures NewestFirst(r)
    ensures multiset(r) == multiset(s) + multiset{x}
    ensures r[0] == x || (|s| > 0 && r[0] == s[0])
  {
    if |s| == 0 || x.updatedAt >= s[0].updatedAt then
      PrependNewest(x, s);
      [x] + s
    else
      assert s == [s[0]] + s[1..];
      assert multiset(s) == multiset{s[0]} + multiset(s[1..]);
      var rest := InsertNewestFirst(x, s[1..]);
      PrependNewest(s[0], rest);
      [s[0]] + rest
  }

  lemma PrependNewest(h: Note, s: seq<Note>)
    requires NewestFirst(s) && (|s| > 0 ==> h.updatedAt >= s[0].updatedAt)
    ensures NewestFirst([h] + s)
  {
    var r := [h] + s;
    forall i, j | 0 <= i < j < |r| ensures r[i].updatedAt >= r[j].updatedAt {
      if i == 0 && j > 1 {
        assert s[0].updatedAt >= s[j - 1].updatedAt;
      }
    }
  }

  /** `ORDER BY updated_at DESC`: a permutation of `s`, newest first. The
      order among rows with equal `updated_at` is left open by SQL; this
      definition picks one. */
  function SortNewestFirst(s: seq<Note>): (r: seq<Note>)
    ensures NewestFirst(r)
    ensures multiset(r) == multiset(s)
  {
    if |s| == 0 then
      []
    else
      assert s == [s[0]] + s[1..];
      InsertNewestFirst(s[0], SortNewestFirst(s[1..]))
  }

  /** `SELECT * FROM notes ORDER BY updated_at DESC`: every row exactly once,
      newest first. */
  function GetAllNotes(db: Db): (r: Result<seq<Note>, string>)
    requires ValidDb(db)
    ensures r.Err? <==> db.notes.None?
    ensures r.Err? ==> r.error == NoSuchTable
    ensures r.Ok? ==> NewestFirst(r.value)
    ensures r.Ok? ==> forall x :: multiset(r.value)[x] == if IsRow(db.notes.value, x) then 1 else 0
  {
    match db.notes
    case None => Err(NoSuchTable)
    case Some(t) => Ok(SortNewestFirst(RowsBelow(t, t.nextId)))
  }

  /** `SELECT * FROM notes WHERE id = ?`: the row, or `undefined` when no row
      has that id. Absence is an ordinary outcome, not an error. */
  function GetNoteById(db: Db, id: int): (r: Result<Option<Note>, string>)
    requires ValidDb(db)
    ensures r.Err? <==> db.notes.None?
    ensures r.Err? ==> r.error == NoSuchTable
    ensures r.Ok? && r.value.Some? ==> r.value.value.id == id && IsRow(db.notes.value, r.value.value)
    ensures r.Ok? && r.value.None? ==> id !in db.notes.value.rows
  {
    match db.notes
    case None => Err(NoSuchTable)
    case Some(t) => Ok(if id >= 0 && id in t.rows then Some(t.rows[id]) else None)
  }

  /** `INSERT INTO notes (title, content) VALUES (?, ?)`: one new row under an
      id larger than any id ever handed out, both timestamps `now`, title and
      content stored as given; every other row is untouched. */
  function CreateNote(db: Db, title: string, content: string, now: nat): (r: Step<RunResult>)
    requires ValidDb(db)
    ensures ValidDb(r.db)
    ensures db.notes.None? ==> r == Step(Err(NoSuchTable), db)
    ensures db.notes.Some? ==>
      var t := db.notes.value;
      && r.result.Ok? && r.db.notes.Some?
      && var id := r.result.value.id;
      && var t' := r.db.notes.value;
      && r.result.value.changes == 1
      && id >= t.nextId && id !in t.rows
      && t'.rows == t.rows[id := Note(id, title, content, now, now)]
      && t'.nextId > id && t'.lastId == id
  {
    match db.notes
    case None => Step(Err(NoSuchTable), db)
    case Some(t) =>
      var id := t.nextId;
      var t' := Table(t.rows[id := Note(id, title, content, now, now)], id + 1, id);
      Step(Ok(RunResult(id, 1)), Db(Some(t')))
  }

  /** `UPDATE notes SET title = ?, content = ?, updated_at = CURRENT_TIMESTAMP
      WHERE id = ?`: rewrites the three columns of the matching row, keeps its
      id and `created_at`, touches no other row; with no matching row the
      table is unchanged and `changes` is 0, which is not an error. */
  function UpdateNote(db: Db, id: int, title: string, content: string, now: nat): (r: Step<RunResult>)
    requires ValidDb(db)
    ensures ValidDb(r.db)
    ensures db.notes.None? ==> r == Step(Err(NoSuchTable), db)
    ensures db.notes.Some? ==>
      var t := db.notes.value;
      && r.result.Ok? && r.db.notes.Some?
      && var t' := r.db.notes.value;
      && r.result.value.id == t.lastId
      && t'.nextId == t.nextId && t'.lastId == t.lastId
      && t'.rows.Keys == t.rows.Keys
      && (forall k :: k in t.rows && k != id ==> t'.rows[k] == t.rows[k])
      && (id in t.rows ==>
            && r.result.value.changes == 1
            && t'.rows[id] == Note(id, title, content, t.rows[id].createdAt, now))
      && (id !in t.rows ==> r.result.value.changes == 0 && t' == t)
  {
    match db.notes
    case None => Step(Err(NoSuchTable), db)
    case Some(t) =>
      if id >= 0 && id in t.rows then
        var row := t.rows[id];
        var t' := t.(rows := t.rows[id := row.(title := title, content := content, updatedAt := now)]);
        Step(Ok(RunResult(t.lastId, 1)), Db(Some(t')))
      else
        Step(Ok(RunResult(t.lastId, 0)), db)
  }

  /** `DELETE FROM notes WHERE id = ?`: removes exactly the matching row; with
      no matching row the table is unchanged and `changes` is 0. The id stays
      used: AUTOINCREMENT never hands it out again. */
  function DeleteNote(db: Db, id: int): (r: Step<RunResult>)
    requires ValidDb(db)
    ensures ValidDb(r.db)
    ensures db.notes.None? ==> r == Step(Err(NoSuchTable), db)
    ensures db.notes.Some? ==>
      var t := db.notes.value;
      && r.result.Ok? && r.db.notes.Some?
      && var t' := r.db.notes.value;
      && r.result.value.id == t.lastId
      && t'.nextId == t.nextId && t'.lastId == t.lastId
      && t'.rows.Keys == t.rows.Keys - {id}
      && (forall k :: k in t'.rows ==> t'.rows[k] == t.rows[k])
      && r.result.value.changes == (if id in t.rows then 1 else 0)
  {
    match db.notes
    case None => Step(Err(NoSuchTable), db)
    case Some(t) =>
      if id >= 0 && id in t.rows then
        Step(Ok(RunResult(t.lastId, 1)), Db(Some(t.(rows := t.rows - {id}))))
      else
        Step(Ok(RunResult(t.lastId, 0)), db)
  }

  /** The writes the application issues, with the clock reading each one
      sees. */
  datatype Statement =
    | Insert(title: string, content: string, at: nat)
    | Update(id: int, title: string, content: string, at: nat)
    | Delete(id: int)

  function Execute(db: Db, s: Statement): (r: Step<RunResult>)
    requires ValidDb(db)
    ensures ValidDb(r.db)
  {
    match s
    case Insert(title, content, at) => CreateNote(db, title, content, at)
    case Update(id, title, content, at) => UpdateNote(db, id, title, content, at)
    case Delete(id) => DeleteNote(db, id)
  }

  /** The ids the inserts of `ss` are given, in order. */
  function InsertedIds(db: Db, ss: seq<Statement>): seq<nat>
    requires ValidDb(db)
    decreases |ss|
  {
    if |ss| == 0 then
      []
    else
      var step := Execute(db, ss[0]);
      var rest := InsertedIds(step.db, ss[1..]);
      if ss[0].Insert? && step.result.Ok? then [step.result.value.id] + rest else rest
  }

  /** AUTOINCREMENT: over any run of inserts, updates and deletes, the ids
      handed out strictly increase and none of them was in use before the
      run, so an id freed by a delete is never given to a new row. */
  lemma {:induction false} IdsNeverReused(db: Db, ss: seq<Statement>)
    requires ValidDb(db) && db.notes.Some?
    ensures forall i, j :: 0 <= i < j < |InsertedIds(db, ss)| ==> InsertedIds(db, ss)[i] < InsertedIds(db, ss)[j]
    ensures forall i :: 0 <= i < |InsertedIds(db, ss)| ==> InsertedIds(db, ss)[i] >= db.notes.value.nextId
    decreases |ss|
  {
    if |ss| > 0 {
      var step := Execute(db, ss[0]);
      var rest := InsertedIds(step.db, ss[1..]);
      var floor := db.notes.value.nextId;
      IdsNeverReused(step.db, ss[1..]);
      assert forall i :: 0 <= i < |rest| ==> rest[i] >= step.db.notes.value.nextId;
      assert forall i, j :: 0 <= i < j < |rest| ==> rest[i] < rest[j];
      assert step.db.notes.value.nextId >= floor;
      if ss[0].Insert? {
        var id := step.result.value.id;
        var ids := [id] + rest;
        assert InsertedIds(db, ss) == ids;
        assert step.db.notes.value.nextId > id >= floor;
        forall i, j | 0 <= i < j < |ids| ensures ids[i] < ids[j] {
          assert ids[j] == rest[j - 1];
          if i > 0 {
            assert ids[i] == rest[i - 1];
          }
        }
        forall i | 0 <= i < |ids| ensures ids[i] >= floor {
          if i > 0 {
            assert ids[i] == rest[i - 1];
          }
        }
      } else {
        assert InsertedIds(db, ss) == rest;
        forall i | 0 <= i < |rest| ensures rest[i] >= floor {
        }
      }
    }
  }

  /** Every row was written no later than `now`, and no row was updated
      before it was created. */
  ghost predicate TimesUpTo(t: Table, now: nat) {
    forall k :: k in t.rows ==> t.rows[k].createdAt <= t.rows[k].updatedAt <= now
  }

  /** With a clock that does not run backwards, `created_at <= updated_at`
      survives every write, and the new or updated row carries the time of
      the write. */
  lemma ExecuteKeepsTimes(db: Db, s: Statement, before: nat, now: nat)
    requires ValidDb(db) && db.notes.Some? && TimesUpTo(db.notes.value, before)
    requires (s.Insert? || s.Update?) ==> before <= s.at <= now
    requires s.Delete? ==> before <= now
    ensures TimesUpTo(Execute(db, s).db.notes.value, now)
  {
  }

  /** Rows A and B inserted in that order, then A updated later: the
      listing shows A first, as the most recently touched row. */
  lemma UpdatedRowListedFirst(ta: string, ca: string, tb: string, cb: string, ta': string, ca': string,
                              t1: nat, t2: nat, t3: nat)
    requires t1 <= t2 < t3
    ensures
      var s1 := CreateNote(InitializeDatabase(Db(None)), ta, ca, t1);
      var s2 := CreateNote(s1.db, tb, cb, t2);
      var s3 := UpdateNote(s2.db, s1.result.value.id, ta', ca', t3);
      GetAllNotes(s3.db) == Ok([
        Note(s1.result.value.id, ta', ca', t1, t3),
        Note(s2.result.value.id, tb, cb, t2, t2)])
  {
    var s1 := CreateNote(InitializeDatabase(Db(None)), ta, ca, t1);
    var ia := s1.result.value.id;
    var s2 := CreateNote(s1.db, tb, cb, t2);
    var ib := s2.result.value.id;
    var nb := Note(ib, tb, cb, t2, t2);
    var s3 := UpdateNote(s2.db, ia, ta', ca', t3);
    var na := Note(ia, ta', ca', t1, t3);
    assert s3.db.notes.value.rows == map[ia := na, ib := nb];
    ListTwoRows(s3.db, na, nb);
  }

  /** A table of two rows lists the more recently updated one first. */
  lemma ListTwoRows(db: Db, na: Note, nb: Note)
    requires ValidDb(db) && db.notes.Some?
    requires na.id != nb.id && db.notes.value.rows == map[na.id := na, nb.id := nb]
    requires na.updatedAt > nb.updatedAt
    ensures GetAllNotes(db) == Ok([na, nb])
  {
    var t := db.notes.value;
    var res := GetAllNotes(db);
    var r := res.value;
    assert IsRow(t, na) && IsRow(t, nb);
    forall x ensures multiset(r)[x] == multiset{na, nb}[x] {
      if x != na && x != nb {
        assert !IsRow(t, x);
      }
    }
    assert multiset(r) == multiset{na, nb};
    TwoRowsNewestFirst(r, na, nb);
  }

  lemma TwoRowsNewestFirst(r: seq<Note>, na: Note, nb: Note)
    requires NewestFirst(r) && multiset(r) == multiset{na, nb}
    requires na.updatedAt > nb.updatedAt
    ensures r == [na, nb]
  {
    assert |r| == |multiset(r)| == 2;
    assert r[0] in multiset(r) && r[1] in multiset(r);
    assert na in multiset(r) && nb in multiset(r);
  }
}

=== FILE: strings.dfy ===
/** The JavaScript string primitives the application relies on, over
    `seq<char>`: `String.prototype.trim`, `includes`, `endsWith`, and the
    code-unit order that `Array.prototype.sort` uses for strings. */
module Strings {

  /** The WhiteSpace and LineTerminator code points of ECMAScript: exactly
      the characters `trim()` strips from both ends. */
  predicate IsJsWhitespace(c: char) {
    var n := c as int;
    || n == 0x09 || n == 0x0A || n == 0x0B || n == 0x0C || n == 0x0D || n == 0x20
    || n == 0xA0 || n == 0x1680 || (0x2000 <= n <= 0x200A)
    || n == 0x2028 || n == 0x2029 || n == 0x202F || n == 0x205F || n == 0x3000 || n == 0xFEFF
  }

  predicate AllWhitespace(s: string) {
    forall i :: 0 <= i < |s| ==> IsJsWhitespace(s[i])
  }

  /** Drops leading whitespace: the result is the longest suffix of `s`
      that does not start with whitespace. */
  function TrimStart(s: string): (r: string)
    ensures |r| <= |s| && r == s[|s| - |r|..]
    ensures AllWhitespace(s[..|s| - |r|])
    ensures |r| > 0 ==> !IsJsWhitespace(r[0])
  {
    if |s| > 0 && IsJsWhitespace(s[0]) then
      var r := TrimStart(s[1..]);
      var k := |s| - |r|;
      assert s[k..] == s[1..][k - 1..];
      assert s[..k] == [s[0]] + s[1..][..k - 1];
      r
    else
      s
  }

  /** Drops trailing whitespace: the result is the longest prefix of `s`
      that does not end with whitespace. */
  function TrimEnd(s: string): (r: string)
    ensures |r| <= |s| && r == s[..|r|]
    ensures AllWhitespace(s[|r|..])
    ensures |r| > 0 ==> !IsJsWhitespace(r[|r| - 1])
  {
    if |s| > 0 && IsJsWhitespace(s[|s| - 1]) then
      var r := TrimEnd(s[..|s| - 1]);
      assert s[|r|..] == s[..|s| - 1][|r|..] + [s[|s| - 1]];
      r
    else
      s
  }

  /** `r` sits at index `i` of `s`, with only whitespace before and after
      it. */
  predicate TrimmedAt(s: string, r: string, i: nat) {
    i + |r| <= |s| && r == s[i..i + |r|] && AllWhitespace(s[..i]) && AllWhitespace(s[i + |r|..])
  }

  /** `s.trim()`: the part of `s` between its leading and trailing
      whitespace. It is empty exactly when `s` is all whitespace. */
  function Trim(s: string): (r: string)
    ensures |r| <= |s|
    ensures exists i: nat :: TrimmedAt(s, r, i)
    ensures |r| == 0 <==> AllWhitespace(s)
    ensures |r| > 0 ==> !IsJsWhitespace(r[0]) && !IsJsWhitespace(r[|r| - 1])
  {
    var t := TrimStart(s);
    var r := TrimEnd(t);
    TrimBothEnds(s, t, r);
    StripsAreTrim(s);
    r
  }

  lemma StripsAreTrim(s: string)
    ensures exists i: nat :: TrimmedAt(s, TrimEnd(TrimStart(s)), i)
  {
    var t := TrimStart(s);
    TrimInfix(s, t, TrimEnd(t));
  }

  /** Stripping a whitespace prefix and then a whitespace suffix leaves a
      middle part with whitespace on either side of it. */
  lemma TrimInfix(s: string, t: string, r: string)
    requires |t| <= |s| && t == s[|s| - |t|..] && AllWhitespace(s[..|s| - |t|])
    requires |r| <= |t| && r == t[..|r|] && AllWhitespace(t[|r|..])
    ensures TrimmedAt(s, r, |s| - |t|)
  {
    var i := |s| - |t|;
    assert r == s[i..i + |r|];
    assert s[i + |r|..] == t[|r|..];
  }

  lemma TrimBothEnds(s: string, t: string, r: string)
    requires t == TrimStart(s) && r == TrimEnd(t)
    ensures |r| == 0 <==> AllWhitespace(s)
    ensures |r| > 0 ==> !IsJsWhitespace(r[0])
  {
    if |r| == 0 {
      assert t[|r|..] == t;
      assert |t| == 0;
      assert s[..|s| - |t|] == s;
    } else {
      assert r[0] == t[0] == s[|s| - |t|];
    }
  }

  /** The test `!s || s.trim().length === 0` for a string `s`: the empty
      string is falsy, and a string of whitespace trims to empty. */
  predicate IsBlank(s: string) {
    |Trim(s)| == 0
  }

  /** A string with no whitespace at either end is its own trim. */
  lemma TrimOfTrimmed(s: string)
    requires |s| > 0 ==> !IsJsWhitespace(s[0]) && !IsJsWhitespace(s[|s| - 1])
    ensures Trim(s) == s
  {
  }

  /** Trimming twice is trimming once. */
  lemma TrimIdempotent(s: string)
    ensures Trim(Trim(s)) == Trim(s)
  {
    TrimOfTrimmed(Trim(s));
  }

  predicate OccursAt(s: string, sub: string, i: nat) {
    i + |sub| <= |s| && s[i..i + |sub|] == sub
  }

  /** `s.includes(sub)`: a case-sensitive search for `sub` as a contiguous
      substring of `s` at any position. */
  predicate Contains(s: string, sub: string) {
    exists i: nat :: i <= |s| && OccursAt(s, sub, i)
  }

  /** `s.endsWith(suffix)`. */
  predicate EndsWith(s: string, suffix: string) {
    |suffix| <= |s| && s[|s| - |suffix|..] == suffix
  }

  /** Anything written between two strings is found by `includes`. */
  lemma ContainsInfix(a: string, sub: string, b: string)
    ensures Contains(a + sub + b, sub)
  {
    var s := a + sub + b;
    assert s[|a|..|a| + |sub|] == sub;
    assert OccursAt(s, sub, |a|);
  }

  /** A string lacking one of the needle's characters cannot contain it. */
  lemma MissingCharNotContained(s: string, sub: string, c: char)
    requires c in sub && c !in s
    ensures !Contains(s, sub)
  {
    var k :| 0 <= k < |sub| && sub[k] == c;
    forall i: nat | i + |sub| <= |s| ensures !OccursAt(s, sub, i) {
      assert s[i..i + |sub|][k] == s[i + k] != c;
    }
  }

  /** A character the needle lacks splits the haystack: an occurrence must
      lie wholly on one side of it. */
  lemma SplitNotContained(a: string, c: char, b: string, sub: string)
    requires c !in sub
    requires !Contains(a, sub) && !Contains(b, sub)
    ensures !Contains(a + [c] + b, sub)
  {
    var s := a + [c] + b;
    forall i: nat | i + |sub| <= |s| ensures !OccursAt(s, sub, i) {
      if i + |sub| <= |a| {
        assert s[i..i + |sub|] == a[i..i + |sub|];
        assert !OccursAt(a, sub, i);
      } else if i > |a| {
        var j: nat := i - |a| - 1;
        assert s[i..i + |sub|] == b[j..j + |sub|];
        assert !OccursAt(b, sub, j);
      } else {
        assert s[i..i + |sub|][|a| - i] == c != sub[|a| - i];
      }
    }
  }

  // JavaScript strings are sequences of UTF-16 code units, while a Dafny
  // `char` is a Unicode scalar value; `sort()` compares the code units.

  /** The UTF-16 encoding of one character: the character itself below
      U+10000, otherwise a high surrogate followed by a low surrogate. */
  function CodeUnits(c: char): (r: seq<int>)
    ensures |r| == 1 <==> (c as int) < 0x10000
    ensures |r| == 1 || |r| == 2
  {
    var n := c as int;
    if n < 0x10000 then [n] else [0xD800 + (n - 0x10000) / 0x400, 0xDC00 + (n - 0x10000) % 0x400]
  }

  /** The UTF-16 code units of a string; its length is JavaScript's
      `length`. */
  function Utf16(s: string): (r: seq<int>)
    ensures |r| >= |s|
    ensures |r| == 0 <==> |s| == 0
    ensures (forall i :: 0 <= i < |s| ==> (s[i] as int) < 0x10000) ==> |r| == |s|
    ensures (exists i :: 0 <= i < |s| && (s[i] as int) >= 0x10000) ==> |r| > |s|
  {
    if |s| == 0 then []
    else
      assert forall i :: 0 < i < |s| ==> s[i] == s[1..][i - 1];
      CodeUnits(s[0]) + Utf16(s[1..])
  }

  /** Lexicographic order on code-unit sequences: the comparison
      `Array.prototype.sort` applies to strings when no comparator is
      given. */
  predicate UnitsLe(a: seq<int>, b: seq<int>)
    decreases |a|
  {
    |a| == 0 || (|b| > 0 && (a[0] < b[0] || (a[0] == b[0] && UnitsLe(a[1..], b[1..]))))
  }

  /** The place of a character in code-unit order. Characters from U+E000
      to U+FFFF are single units above every high surrogate, so they sort
      after every character outside the Basic Multilingual Plane; all other
      characters keep their code-point order. */
  function SortKey(c: char): (k: int)
    ensures (c as int) < 0xE000 || (c as int) >= 0x10000 ==> k == c as int
    ensures 0xE000 <= (c as int) < 0x10000 ==> k > 0x10FFFF
  {
    var n := c as int;
    if 0xE000 <= n < 0x10000 then n + 0x110000 else n
  }

  /** The string order of `sort()`, character by character: `LexLe(a, b)`
      exactly when the UTF-16 encoding of `a` does not come after that of
      `b` (see `LexLeIsUtf16Order`). */
  predicate LexLe(a: string, b: string)
    decreases |a|
  {
    |a| == 0 || (|b| > 0 && (SortKey(a[0]) < SortKey(b[0]) || (a[0] == b[0] && LexLe(a[1..], b[1..]))))
  }

  lemma SortKeyInjective(c: char, d: char)
    requires SortKey(c) == SortKey(d)
    ensures c == d
  {
  }

  /** `LexLe` is the order `sort()` uses: the comparison of the two
      strings' UTF-16 code units. */
  lemma {:induction false} LexLeIsUtf16Order(a: string, b: string)
    ensures LexLe(a, b) <==> UnitsLe(Utf16(a), Utf16(b))
    decreases |a|
  {
    if |a| > 0 && |b| > 0 {
      assert Utf16(a) == CodeUnits(a[0]) + Utf16(a[1..]);
      assert Utf16(b) == CodeUnits(b[0]) + Utf16(b[1..]);
      if a[0] == b[0] {
        LexLeIsUtf16Order(a[1..], b[1..]);
        UnitsLeCommonPrefix(CodeUnits(a[0]), Utf16(a[1..]), Utf16(b[1..]));
      } else {
        FirstCharDecides(a[0], b[0], Utf16(a[1..]), Utf16(b[1..]));
      }
    }
  }

  lemma {:induction false} UnitsLeCommonPrefix(p: seq<int>, x: seq<int>, y: seq<int>)
    ensures UnitsLe(p + x, p + y) <==> UnitsLe(x, y)
    decreases |p|
  {
    if |p| > 0 {
      assert (p + x)[0] == p[0] == (p + y)[0];
      assert (p + x)[1..] == p[1..] + x && (p + y)[1..] == p[1..] + y;
      UnitsLeCommonPrefix(p[1..], x, y);
    } else {
      assert p + x == x && p + y == y;
    }
  }

  /** Two different characters differ within their code units, and the
      first difference agrees with their sort keys. */
  lemma FirstCharDecides(c: char, d: char, x: seq<int>, y: seq<int>)
    requires c != d
    ensures UnitsLe(CodeUnits(c) + x, CodeUnits(d) + y) <==> SortKey(c) < SortKey(d)
  {
    var u, v := CodeUnits(c) + x, CodeUnits(d) + y;
    assert u[0] == CodeUnits(c)[0] && v[0] == CodeUnits(d)[0];
    var n, m := c as int, d as int;
    if n >= 0x10000 && m >= 0x10000 && u[0] == v[0] {
      assert u[1..] == [CodeUnits(c)[1]] + x && v[1..] == [CodeUnits(d)[1]] + y;
      assert (n - 0x10000) / 0x400 == (m - 0x10000) / 0x400;
      assert (n - 0x10000) % 0x400 != (m - 0x10000) % 0x400;
    }
  }

  lemma {:induction false} LexLeTotal(a: string, b: string)
    ensures LexLe(a, b) || LexLe(b, a)
    decreases |a|
  {
    if |a| > 0 && |b| > 0 && a[0] == b[0] {
      LexLeTotal(a[1..], b[1..]);
    } else if |a| > 0 && |b| > 0 && SortKey(a[0]) == SortKey(b[0]) {
      SortKeyInjective(a[0], b[0]);
    }
  }

  lemma {:induction false} LexLeTransitive(a: string, b: string, c: string)
    requires LexLe(a, b) && LexLe(b, c)
    ensures LexLe(a, c)
    decreases |a|
  {
    if |a| > 0 && a[0] == b[0] && b[0] == c[0] {
      LexLeTransitive(a[1..], b[1..], c[1..]);
    }
  }

  lemma {:induction false} LexLeAntisymmetric(a: string, b: string)
    requires LexLe(a, b) && LexLe(b, a)
    ensures a == b
    decreases |a|
  {
    if |a| > 0 {
      LexLeAntisymmetric(a[1..], b[1..]);
      assert a == [a[0]] + a[1..] && b == [b[0]] + b[1..];
    }
  }
}

=== FILE: wrappers.dfy ===
/** Failure-carrying values: a JavaScript `undefined`/value pair becomes an
    Option, and a call that either returns or throws an Error becomes a Result
    whose failure side is the error's message. */
module Wrappers {

  datatype Option<+T> = None | Some(value: T)

  datatype Result<+T, +E> = Ok(value: T) | Err(error: E)
}
